=== FILE: README.md ===
# WizKlub CRM chatbot: lead qualification, modelled in Dafny

This project models the lead-qualification pipeline of the WizKlub AI CRM chatbot. The pipeline has these parts:

- **Scoring**: a base score by visitor type, plus a signal score from the fields the extraction model finds in a chat message.
- **Pipeline stage**: derived from the cumulative score (New, Warm, Qualified, Hot). A demo booking forces the stage to "Booked".
- **SQLite store**:
  - leads have a UNIQUE email;
  - the signal merge is a `COALESCE`;
  - scores are updated additively;
  - the slot check is global across all leads.
- **Orchestration** in `app/main.py`:
  - the lead-capture form;
  - the demo-booking form;
  - the per-message signal step of `generate_response`.
- **Small helpers**:
  - keyword classification of the visitor;
  - the chat-memory formatter;
  - the stage-to-guidance table;
  - the follow-up recommender;
  - overlapping text chunking;
  - the pipeline histogram.

Modules, one per source file, plus three shared ones:

| module | models |
|---|---|
| `Wrappers` | `Option` and `Completion` (a value, or an exception raised) |
| `PyValues` | JSON/Python values, truthiness, `dict.get`, what `sqlite3` can bind |
| `PyText` | `str.lower`, `str.capitalize`, `str.strip`, substring `in`, slices with negative indices |
| `Database` | `app/database.py`: leads keyed by AUTOINCREMENT id, bookings in insertion order |
| `LeadManager` | `app/lead_manager.py` |
| `AiExtractor` | `app/ai_extractor.py`; the model reply and `json.loads` are parameters |
| `ChatEngine` | `app/chat_engine.py`: classification, memory, guidance, signal step |
| `FollowupEngine` | `app/followup_engine.py` |
| `BuildIndex` | `split_text` of `vector_store/build_index.py` |
| `Analytics` | `app/analytics.py` |
| `AppFlow` | the capture, booking and chat branches of `app/main.py`, as transitions of one session |

The store is an immutable `Store(leads, bookings, nextId)`. Every operation returns a new store. `Store.Valid()` is the invariant that every reachable database keeps:

- ids lie in `[1, nextId)`;
- no two leads share an email.

`AppFlow.ReachableStatesAreConsistent` proves the following. Starting from an empty database, any sequence of chat messages, lead-form submissions and booking submissions keeps two properties:

- every email stays unique;
- no two bookings share a (date, time) slot.

Three behaviours of the code are easy to miss, and the model follows them:

- **`str.capitalize`** upper-cases the first character and lower-cases all the others, so the extracted urgency "hIGH" is stored as "High" (`AiExtractor.NormalizeExample`).
- **The stage is not recomputed everywhere**:
  - `apply_ai_signals` raises the score without touching the stage (`LeadManager.StageNotRecomputedAfterSignals`).
  - A second lead-form submission for the same email recomputes the stage from the score. That overwrites "Booked" (`LeadManager.ReRegistrationOverwritesBooked`).
- **The pipeline histogram** groups on the wrong column (see Findings).

## Model

| member | source | states |
|---|---|---|
| PyValues.Get | app/lead_manager.py:34-55 | `signals.get(k)`: a missing key reads as None, a present key as its value |
| PyText.Lower | app/chat_engine.py:54 | `message.lower()` keeps the length and lower-cases each character |
| PyText.Capitalize | app/ai_extractor.py:59-68 | `str.capitalize`: the first character is upper-cased, every later character is lower-cased, and the length is kept |
| PyText.CapitalizeFixesCapitalized | app/ai_extractor.py:59-68 | under the ASCII case mapping: every result of `capitalize` is in capitalised form, and a string is left unchanged exactly when it is already in that form |
| PyText.CapitalizeIdempotent | app/ai_extractor.py:59-68 | under the ASCII case mapping, capitalising twice is capitalising once |
| PyText.LStrip | app/main.py:115 | the result is a suffix of the input, everything removed is whitespace, and it does not start with whitespace |
| PyText.RStrip | app/main.py:115 | the result is a prefix of the input, everything removed is whitespace, and it does not end with whitespace |
| PyText.RStripAllSpace | app/main.py:115 | a string made only of whitespace right-strips to "" |
| PyText.StripEmptyAllSpace | app/main.py:115 | when `s.strip()` is "", every character of `s` is whitespace |
| PyText.StripEmptyIffAllSpace | app/main.py:115 | `s.strip()` is falsy exactly when `s` consists of whitespace only |
| PyText.ContainsHasOccurrence | app/chat_engine.py:56-60 | when `sub in s`, the lemma returns a position where `sub` occurs in `s` |
| PyText.OccurrenceGivesContains | app/chat_engine.py:56-60 | an occurrence at any position makes `sub in s` true |
| PyText.ContainsIffOccurs | app/chat_engine.py:56-60 | `sub in s` holds exactly when `sub` occurs at some position of `s` |
| PyText.ContainsHasChars | app/chat_engine.py:56-60 | if `sub in s`, then every character of `sub` occurs in `s` |
| PyText.ClampIndex | app/chat_engine.py:80 | Python's slice-bound rule: a negative index counts from the end, and any index is clamped to `[0, n]` |
| PyText.Slice | vector_store/build_index.py:17 | `s[i:j]` is never longer than `s`; it equals the plain subsequence when `0 <= i <= j <= len(s)`, the whole suffix from `i` when `j` runs past the end, and is empty when `0 <= j <= i` |
| PyText.SliceFrom | app/chat_engine.py:80 | `s[i:]` starts at the clamped start index |
| Database.SaveLead | app/database.py:72-116 | a new email adds exactly one lead, with the next id, the given score, stage "New" and the given columns, and leaves every other row alone; a duplicate email leaves the database unchanged (the IntegrityError is swallowed); in both cases the database stays valid and the email is taken |
| Database.ScanEmail | app/database.py:123-124 | the id found is the smallest one in range holding the email; None means no id in range holds it |
| Database.GetLeadByEmail | app/database.py:119-127 | None exactly when no lead has the email; otherwise the id and columns of the one lead that has it |
| Database.UpdatePipelineStage | app/database.py:130-140 | any string becomes that lead's stage, unvalidated; other leads, bookings and the id counter are unchanged; an unknown id changes nothing |
| Database.IncreaseLeadScore | app/database.py:143-154 | that lead's score rises by exactly the increment and nothing else changes; an unknown id changes nothing |
| Database.Coalesce | app/database.py:170-174 | `COALESCE(?, col)`: a None parameter, or a NaN float (which SQLite binds as NULL), keeps the stored value; any other value replaces it, including "" |
| Database.MergeSignals | app/database.py:168-183 | each of grade, program_interest, urgency and budget_signal is coalesced from its key, extracted_intent from "intent", and every other column is kept |
| Database.MergeSignalsIdempotent | app/database.py:168-183 | merging the same signals twice equals merging them once |
| Database.UpdateLeadSignals | app/database.py:161-186 | raises exactly when a bound value is a list, a dict or an int outside 64 bits; otherwise only the target lead is merged, and bookings and ids are untouched |
| Database.WideIntRaisesNaNKeeps | app/database.py:161-186 | a JSON grade of 10^20 makes the update raise; a NaN grade is accepted and leaves the stored grade unchanged |
| Database.UpdateLeadSignalsIdempotent | app/database.py:161-186 | running `update_lead_signals` twice with the same signals equals running it once |
| Database.CountSlot | app/database.py:197-202 | the count is 0 exactly when no booking holds the (date, time) slot |
| Database.IsSlotAvailable | app/database.py:193-205 | true exactly when no booking of any lead has that date and time |
| Database.SaveBooking | app/database.py:208-232 | appends exactly one "Scheduled" booking and keeps every earlier one; it checks neither the slot nor the lead |
| Database.GetBookingsByLead | app/database.py:235-247 | every view returned comes from one of that lead's bookings; a lead with no bookings gets [] |
| Database.IncreaseLeadScoreAdditive | app/database.py:143-154 | two increments equal one increment by their sum |
| Database.UpdatePipelineStageLastWins | app/database.py:130-140 | of two stage writes, the last one wins |
| Database.SaveLeadThenFind | app/database.py:85-127 | a lead inserted under a new email is found by that email, with the id it was given and the columns it was saved with |
| Database.SaveBookingThenList | app/database.py:208-247 | a new booking shows up last in its lead's listing and in no other lead's listing |
| Database.SaveBookingCanDoubleBook | app/database.py:51-62 | `save_booking` alone lets two leads take the same slot: no constraint on (date, time) exists |
| LeadManager.BaseScore | app/lead_manager.py:13-18 | School scores 40, Parent 20, and everything else 10, including "Unknown" and None |
| LeadManager.SignalScore | app/lead_manager.py:25-57 | None or an empty dict scores 0, and every score lies in [-5, 85] |
| LeadManager.SignalScoreIsFieldSum | app/lead_manager.py:29-57 | a non-empty dict scores the sum of its independent per-field deltas (grade, program_interest, urgency, intent, budget) |
| LeadManager.SignalScoreMinimum | app/lead_manager.py:32-57 | the score is -5 exactly when the budget is Sensitive and no other field earns anything |
| LeadManager.SignalScoreMaximum | app/lead_manager.py:32-57 | the score is 85 exactly when every field takes its highest-scoring branch |
| LeadManager.SignalScoreCaseSensitive | app/lead_manager.py:34-55 | "high" earns nothing where "High" earns 20; an empty grade and a None program_interest earn nothing |
| LeadManager.PipelineStage | app/lead_manager.py:64-72 | always one of New, Warm, Qualified or Hot, never "Booked" |
| LeadManager.PipelineStageBands | app/lead_manager.py:64-72 | Hot iff score >= 90, Qualified iff 60..89, Warm iff 30..59, New iff below 30 (negative scores included) |
| LeadManager.PipelineStageMonotone | app/lead_manager.py:64-72 | a higher score never gives a lower stage |
| LeadManager.SaveLead | app/lead_manager.py:79-118 | existing email: no row is added, the score rises by the base score, the stage follows the new total, and the new total is returned; new email: exactly one row is added, with score = base and the stage for base, and base is returned; the database stays valid |
| LeadManager.SaveLeadRow | app/lead_manager.py:84-118 | after registration the email's row is the earlier row with the new total and its score stage, or a fresh row at the next id; leads with other emails are unchanged and no id beyond the next one appears |
| LeadManager.SaveLeadScoreAdditive | app/lead_manager.py:84-118 | the email's stored score rises by exactly the base score, the returned total equals the stored score, and the stage matches it |
| LeadManager.ReRegistrationOverwritesBooked | app/lead_manager.py:88-100 | re-registering a "Booked" lead replaces "Booked" with a score stage |
| LeadManager.SaveLeadIgnoresIntent | app/lead_manager.py:79-118 | the `intent` argument has no effect on the database or on the result |
| LeadManager.ApplyAiSignals | app/lead_manager.py:125-145 | falsy signals change nothing; otherwise it raises exactly on an unbindable value; else the lead is merged, its score rises by exactly the signal score, its stage is untouched, and other leads and bookings are unchanged |
| LeadManager.ApplyAiSignalsValid | app/lead_manager.py:125-140 | applying signals keeps the database valid |
| LeadManager.StageNotRecomputedAfterSignals | app/lead_manager.py:137-145 | a Warm lead at 40 whose signals add 55 has score 95 yet stays Warm, although 95 is a Hot score |
| AiExtractor.FirstIndexOf | app/ai_extractor.py:27 | the index of the first occurrence of the character, or None when it does not occur |
| AiExtractor.LastIndexOf | app/ai_extractor.py:27 | the index of the last occurrence of the character, or None when it does not occur |
| AiExtractor.BraceBounds | app/ai_extractor.py:27-31 | None exactly when no '{' precedes a '}'; otherwise the first '{' and the last '}' |
| AiExtractor.BraceSpan | app/ai_extractor.py:27-31 | the greedy DOTALL match: None exactly when no '{' precedes a '}'; otherwise a span that starts with '{', ends with '}' and, put back between its prefix and suffix, rebuilds the text |
| AiExtractor.SafeJsonExtract | app/ai_extractor.py:22-35 | no brace pair gives None; with a span, the result is exactly what the parser makes of it, so a parse failure is None, never an exception |
| AiExtractor.BraceSpanExample | app/ai_extractor.py:27-31 | "x{a}b}" selects "{a}b}", which runs to the last brace; "}{" selects nothing |
| AiExtractor.CapitalizeField | app/ai_extractor.py:59-68 | a falsy value is kept, a truthy string is capitalised, and a truthy non-string raises |
| AiExtractor.NormalizeSignals | app/ai_extractor.py:42-70 | None or {} gives None; otherwise it raises exactly when a truthy non-string must be capitalised; else the output has exactly the five keys, grade and program_interest pass through, and the other three are capitalised |
| AiExtractor.CapitalizeFixesCapitalizedValue | app/ai_extractor.py:59-68 | under the ASCII case mapping, a capitalised field is in canonical form |
| AiExtractor.CanonicalFieldFixed | app/ai_extractor.py:59-68 | under the ASCII case mapping, capitalising a canonical field changes nothing |
| AiExtractor.CanonicalIsFixedPoint | app/ai_extractor.py:50-70 | under the ASCII case mapping, normalising a canonical dict returns it unchanged |
| AiExtractor.NormalizeIdempotent | app/ai_extractor.py:42-70 | under the ASCII case mapping, normalising a normaliser output again gives the same output |
| AiExtractor.NormalizeExample | app/ai_extractor.py:50-70 | extra keys are dropped, missing keys become None, and "hIGH" becomes "High" |
| AiExtractor.ExtractLeadSignals | app/ai_extractor.py:77-124 | no reply gives None; a dict it returns is canonical; no parse, an empty dict or a raising normalisation gives None; otherwise the result is the normalisation of the dict parsed from the stripped reply |
| AiExtractor.ExtractedSignalsAreNormal | app/ai_extractor.py:116-121 | under the ASCII case mapping, extracted signals are a fixed point of normalisation |
| ChatEngine.AnyIn | app/chat_engine.py:56-60 | `any(word in message ...)` holds exactly when some keyword occurs in the message |
| ChatEngine.ClassifyUserType | app/chat_engine.py:53-62 | School exactly when the lower-cased message contains a school keyword; Parent exactly when it contains no school keyword but a parent keyword; None exactly when it contains neither |
| ChatEngine.LowerIdempotent | app/chat_engine.py:54 | lower-casing twice is lower-casing once |
| ChatEngine.LowerConcat | app/chat_engine.py:54 | under the ASCII case mapping, lower-casing distributes over concatenation |
| ChatEngine.ClassifyIgnoresCase | app/chat_engine.py:53-62 | classifying a lower-cased message gives the same result as classifying the original |
| ChatEngine.EmbeddedKeywordClassifies | app/chat_engine.py:56-60 | a school keyword anywhere gives School; a parent keyword anywhere gives some class |
| ChatEngine.NoSchoolWord | app/chat_engine.py:56 | a message without 'h', 'p' or 'u' contains no school keyword |
| ChatEngine.ClassroomIsParent | app/chat_engine.py:59-60 | "Classroom" is classified as Parent, because "class" matches as a substring |
| ChatEngine.LowerClassroom | app/chat_engine.py:54 | "Classroom" lower-cases to "classroom" |
| ChatEngine.LowercaseClassroomIsParent | app/chat_engine.py:59-60 | "classroom" is classified as Parent |
| ChatEngine.ReasonIsParent | app/chat_engine.py:59-60 | "reason" is classified as Parent, because it contains "son" |
| ChatEngine.SchoolBeatsParent | app/chat_engine.py:56-60 | a message containing both "child" and "school" is classified as School |
| ChatEngine.NoKeywordIsUnclassified | app/chat_engine.py:62 | a message without keywords gives None |
| ChatEngine.HistoryWindow | app/chat_engine.py:80 | `chat_history[-max_turns*2:]`: the last 2·max_turns entries; all entries when there are fewer; all entries when max_turns is 0; the negative-turns case per Python slicing |
| ChatEngine.MessageText | app/chat_engine.py:84-87 | an f-string renders a message as itself, and a None message (a model reply with no text part) as "None" |
| ChatEngine.Lines | app/chat_engine.py:83-87 | one line per entry, in order; "User: " for the user role and "Assistant: " for any other role |
| ChatEngine.ConcatAppend | app/chat_engine.py:81-87 | joining lines distributes over appending |
| ChatEngine.RenderConcat | app/chat_engine.py:81-89 | the rendering of two histories is the concatenation of their renderings; the empty history renders as "" |
| ChatEngine.FormatChatHistory | app/chat_engine.py:79-89 | the loop's string is the rendering of exactly the windowed entries, and "" when the window is empty |
| ChatEngine.TextlessReplyRendersNone | app/chat_engine.py:84-87 | a question followed by a reply without text renders as "User: …" then "Assistant: None" |
| ChatEngine.BuildSalesGuidance | app/chat_engine.py:149-171 | no row gives ""; with a row the result starts "Sales Strategy Guidance: " followed by the row's stage guidance, which is non-empty exactly when the stage is a score stage, so "Booked" gets none |
| ChatEngine.DistinctStagesDistinctGuidance | app/chat_engine.py:149-171 | two rows in score stages get the same guidance exactly when their stages are equal |
| ChatEngine.NewLeadGuidance | app/chat_engine.py:159-160 | a "New" lead is told to qualify the lead and encourage demo booking |
| ChatEngine.GuidanceByStage | app/chat_engine.py:157-171 | the four score stages get four distinct non-empty guidances; every other stage gets "" |
| ChatEngine.ScoreStageHasGuidance | app/chat_engine.py:149-171 | a lead whose stage matches its score always gets non-empty guidance |
| ChatEngine.MergeAndScore | app/chat_engine.py:190-200 | the double merge keeps the database valid and leaves bookings alone |
| ChatEngine.ChatSignalStep | app/chat_engine.py:187-200 | without a CRM row, or without signals, nothing changes; otherwise the database stays valid and bookings are untouched |
| ChatEngine.MergeThenApplyIsApply | app/chat_engine.py:190-197 | `update_lead_signals` followed by `apply_ai_signals` on the same signals equals `apply_ai_signals` alone |
| ChatEngine.MergeAndScoreIsOneApply | app/chat_engine.py:190-200 | the signal step raises exactly on an unbindable value; otherwise its effect is one `apply_ai_signals`, and the refreshed row is the updated lead |
| ChatEngine.ChatSignalStepEffect | app/chat_engine.py:187-200 | with signals, the lead's columns are merged once, the score rises by the signal score once, and the stage, other leads and bookings are unchanged |
| FollowupEngine.RecommendAction | app/followup_engine.py:1-15 | always one of the five messages; New, Qualified and Booked decide regardless of score; any other stage gets the high-priority message iff score >= 80, else "Maintain engagement." |
| FollowupEngine.StageTakesPrecedence | app/followup_engine.py:3-10 | for New, Qualified and Booked the score does not matter |
| FollowupEngine.AdviceForScoreStage | app/followup_engine.py:1-15 | for a lead whose stage follows its score: New gives the demo prompt, Warm gives "Maintain engagement." (since Warm < 80), Qualified gives the scheduling push, and Hot gives high priority |
| BuildIndex.ChunkStartIsProduct | vector_store/build_index.py:14-18 | the loop's additive start after k steps equals k·step |
| BuildIndex.ChunkStartMono | vector_store/build_index.py:14-18 | starts never decrease |
| BuildIndex.LastStart | vector_store/build_index.py:15-18 | the last chunk starts inside a non-empty text, and the next start would lie past it |
| BuildIndex.CountFromStarts | vector_store/build_index.py:15-18 | if c starts fall inside the text and the next does not, then ceil(len/step) = c |
| BuildIndex.StartInTextIffBelowCount | vector_store/build_index.py:15-18 | chunk k starts inside the text exactly when k < ceil(len/step) |
| BuildIndex.ChunkOfPosition | vector_store/build_index.py:16-18 | every position lies in the step-window of some chunk |
| BuildIndex.SplitText | vector_store/build_index.py:12-19 | empty text gives no chunks for any sizes; otherwise there are ceil(len/step) chunks and chunk k is text[k·step : k·step+chunk_size] |
| BuildIndex.ChunkLengths | vector_store/build_index.py:15-17 | every chunk is non-empty and at most chunk_size long, and exactly chunk_size when it fits |
| BuildIndex.ConsecutiveChunksOverlap | vector_store/build_index.py:16-18 | chunk k from position `step` on equals the first `overlap` characters of chunk k+1 |
| BuildIndex.ChunksCoverText | vector_store/build_index.py:16-18 | with a non-negative overlap every position of the text lies in some chunk |
| BuildIndex.DefaultChunking | vector_store/build_index.py:12 | the defaults 500/50 step by 450, so 1000 characters give 3 chunks |
| Analytics.Columns | app/chat_engine.py:101-115 | the row tuple: column 8 is program_interest and column 12 is pipeline_stage |
| Analytics.Project | app/analytics.py:7-8 | `lead[c]` for every row, in order |
| Analytics.Occurrences | app/analytics.py:7-9 | a key's count is 0 exactly when the key does not occur |
| Analytics.TallyCounts | app/analytics.py:5-11 | the keys of the dict are exactly the values seen, and each maps to its number of occurrences |
| Analytics.TallySum | app/analytics.py:7-9 | the counts add up to the number of values counted |
| Analytics.GetPipelineCounts | app/analytics.py:3-11 | as written: no leads gives {}; the keys are exactly the program_interest values present, each counted by occurrences |
| Analytics.PipelineCountsSum | app/analytics.py:7-9 | the counts sum to the number of leads |
| Analytics.PipelineCountsIgnoreStage | app/analytics.py:8 | a Warm lead and a Hot lead, both with NULL program interest, give {None: 2} |
| Analytics.StageCountsSeparateStages | app/analytics.py:8 | the same two leads grouped by stage give {Warm: 1, Hot: 1} |
| Analytics.StageCounts | app/analytics.py:3-11 | corrected: the keys are exactly the stages present, each counted by occurrences |
| Analytics.StageCountsSum | app/analytics.py:7-9 | the stage counts sum to the number of leads |
| AppFlow.SessionUserType | app/main.py:121 | `user_type or "Unknown"`: None or "" becomes "Unknown", and anything else is kept |
| AppFlow.CaptureLead | app/main.py:114-132 | the form is hidden once a lead is captured; blank-after-strip name, email or phone saves nothing and changes nothing; otherwise the email's score rises by the base score for the session's type, leads with other emails are untouched, and the session remembers the email and the fresh row: the earlier row with the new total and its score stage, or a new row at the next id with the form's name, phone and type |
| AppFlow.CaptureWithoutTypeAddsTen | app/main.py:121 | with no detected user type, capturing a lead adds 10 to its score |
| AppFlow.BookDemo | app/main.py:160-190 | unknown email gives LeadNotFound and an occupied slot gives SlotTaken, both leaving the database unchanged; otherwise exactly one booking is appended, the stage becomes "Booked" and the score rises by exactly 30 |
| AppFlow.BookDemoKeepsSlotsExclusive | app/main.py:166-173 | the check-then-insert never puts two bookings on one slot |
| AppFlow.SecondBookingOfSlotIsRefused | app/main.py:166-187 | after one confirmed booking of a slot, any lead's booking of the same slot is refused and changes nothing |
| AppFlow.Step | app/main.py:62-190 | a chat message or lead form leaves bookings alone, a booking without a session email does nothing, and bookings are only ever appended |
| AppFlow.Run | app/main.py:62-190 | a session keeps the database valid and only appends bookings |
| AppFlow.RunKeepsSlotsExclusive | app/main.py:166-173 | if no two bookings share a slot at the start, none do after any sequence of requests |
| AppFlow.ReachableStatesAreConsistent | app/main.py:43-190 | from an empty database and a fresh session, every reachable state has unique emails and exclusive slots |

## Left out

- The hosted model calls are not modelled, because they are external services:
  - the reply of `generate_content` in `generate_response`;
  - the extraction call in `extract_lead_signals`;
  - all of `app/grade_extractor.py`.
  The extraction reply is a parameter (`Option<string>`, where None stands for a call that raised or a reply with no text).
- `json.loads` is a library call. It is the parameter `parse`, which returns None for text it rejects. The span always starts with '{' and ends with '}', so a successful parse is an object.
- JSON floats are exact rationals (`Finite`) or the non-finite `NaN` and `±Infinity`; the rounding of IEEE doubles is not modelled, because nothing in the core does arithmetic on them. JSON integers are unbounded, and binding one outside SQLite's 64-bit range raises, as `sqlite3` does.
- FAISS and SentenceTransformer retrieval are not modelled: `load_vector_store`, `retrieve_chunks`, and `build_vector_store` with its file I/O.
- Prompt assembly in `generate_response`, `build_crm_context`, and the role instructions are not modelled. They only format text for the model.
- Streamlit rendering and the chat-history append in `app/main.py` are not modelled. `AppFlow.Session` keeps only the keys the CRM branches read.
- `initialize_db`, connections and `DB_PATH` are left out. `get_all_bookings` and `app/admin_dashboard.py` are presentation and are left out too.
- `created_at` timestamps (`datetime.now()`) are omitted from rows. `Analytics.Columns` stops at column 12.
- SQLite type affinity is not modelled: a TEXT column given a number stores its text. Values are kept as bound.
- Scores are unbounded integers. SQLite's 64-bit INTEGER limit is not modelled, because the deltas are small constants.
- A SELECT without ORDER BY is taken to return rows in id order. This affects `GetLeadByEmail` (unique anyway), `GetBookingsByLead` and the analytics rows.
- Concurrency is not modelled. Two sessions racing between `is_slot_available` and `save_booking`, or between the lookup and the insert in `save_lead`, could violate the slot invariant. The model runs one request at a time.
- PyText.Lower: maps only the ASCII letters. Python also lower-cases non-ASCII letters (for example 'Ä').
- PyText.Capitalize: maps only the ASCII letters. Python's full Unicode case mapping (for example 'ß' or title-case digraphs) is left out.
- PyText.CapitalizeFixesCapitalized: holds for the ASCII case mapping only. In Python, "ŉ".capitalize() is "ʼN" (U+0149 title-cases to two characters), which is not in capitalised form.
- PyText.CapitalizeIdempotent: holds for the ASCII case mapping only. In Python, "ŉ" capitalises to "ʼN" and that to "ʼn".
- AiExtractor.CapitalizeFixesCapitalizedValue: holds for the ASCII case mapping only, for the "ŉ" reason above.
- AiExtractor.CanonicalFieldFixed: holds for the ASCII case mapping only. "AÉ" is canonical in the model, but Python capitalises it to "Aé".
- AiExtractor.CanonicalIsFixedPoint: holds for the ASCII case mapping only, for the "AÉ" reason above.
- AiExtractor.NormalizeIdempotent: holds for the ASCII case mapping only. In Python an urgency of "ŉ" changes on a second normalisation.
- AiExtractor.ExtractedSignalsAreNormal: holds for the ASCII case mapping only, for the "ŉ" reason above.
- ChatEngine.LowerConcat: holds for the ASCII case mapping only. Python's final-sigma rule makes "ΑΣ".lower() "ας", while "Α".lower() + "Σ".lower() is "ασ".
- BuildIndex.SplitText: requires chunk_size > overlap for a non-empty text, because with a step of zero or less the source's loop never ends on a non-empty text. An empty text is accepted with any sizes and gives [], as in the source.
- Database.GetBookingsByLead: states membership and the empty case, not the full order-preserving filter. The order is stated for appends by `Database.SaveBookingThenList`.
- ChatEngine.MergeAndScore: states only validity and untouched bookings. The full effect is in `ChatEngine.MergeAndScoreIsOneApply`.
- Database.UpdateLeadSignals, LeadManager.ApplyAiSignals and ChatEngine.MergeAndScoreIsOneApply: strings are sequences of Unicode scalar values. A `json.loads` string holding a lone surrogate (from the escape "\ud800") cannot be represented, so `sqlite3`'s UnicodeEncodeError when binding it is not among the modelled raises.

## Findings

| source | as written | input that shows it | evidently intended | confidence | as-written member | corrected member |
|---|---|---|---|---|---|---|
| app/analytics.py:8 | `stage = lead[8]` groups the pipeline histogram on column 8, which in the schema (app/database.py:32-47) is `program_interest` | two leads, Warm and Hot, both with NULL program interest: the histogram is {None: 2} | group on `lead[12]`, `pipeline_stage`, giving {Warm: 1, Hot: 1} | high; not executed | Analytics.GetPipelineCounts (shown by Analytics.PipelineCountsIgnoreStage) | Analytics.StageCounts (shown by Analytics.StageCountsSeparateStages) |

=== FILE: ai_extractor.dfy ===
/** Signal extraction of `app/ai_extractor.py`: picking the `{...}` span out
    of the model's reply, and normalising the parsed object. The hosted
    model call and `json.loads` are parameters: the reply text (None when
    the call raised) and a parser returning None for text it rejects. */
module AiExtractor {

  import opened Wrappers
  import opened PyValues
  import opened PyText

  // ----------------------------------------------------------------------
  // safe_json_extract
  // ----------------------------------------------------------------------

  function FirstIndexOf(s: string, c: char): (r: Option<nat>)
    ensures r.Some? ==> r.value < |s| && s[r.value] == c
    ensures r.Some? ==> forall k | 0 <= k < r.value :: s[k] != c
    ensures r.None? ==> forall k | 0 <= k < |s| :: s[k] != c
  {
    if |s| == 0 then None
    else if s[0] == c then Some(0)
    else match FirstIndexOf(s[1..], c)
      case None => None
      case Some(i) => Some(i + 1)
  }

  function LastIndexOf(s: string, c: char): (r: Option<nat>)
    ensures r.Some? ==> r.value < |s| && s[r.value] == c
    ensures r.Some? ==> forall k | r.value < k < |s| :: s[k] != c
    ensures r.None? ==> forall k | 0 <= k < |s| :: s[k] != c
  {
    if |s| == 0 then None
    else if s[|s| - 1] == c then Some(|s| - 1)
    else LastIndexOf(s[..|s| - 1], c)
  }

  /** Some '{' stands before some '}'. */
  predicate HasBracePair(text: string) {
    exists i, j | 0 <= i < j < |text| :: text[i] == '{' && text[j] == '}'
  }

  /** Where `re.search(r'\{.*\}', text, re.DOTALL)` matches: from the
      leftmost '{' through the rightmost '}', when that '}' comes later. */
  function BraceBounds(text: string): (r: Option<(nat, nat)>)
    ensures r.None? <==> !HasBracePair(text)
    ensures r.Some? ==> var (i, j) := r.value;
      && i < j < |text| && text[i] == '{' && text[j] == '}'
      && (forall k | 0 <= k < i :: text[k] != '{')
      && (forall k | j < k < |text| :: text[k] != '}')
  {
    match FirstIndexOf(text, '{')
    case None => None
    case Some(i) =>
      match LastIndexOf(text, '}')
      case None => None
      case Some(j) => if i < j then Some((i, j)) else None
  }

  /** The matched text: it starts with '{', ends with '}', and the text
      around it holds no '{' before and no '}' after (by `BraceBounds`). */
  function BraceSpan(text: string): (r: Option<string>)
    ensures r.None? <==> !HasBracePair(text)
    ensures r.Some? ==> |r.value| >= 2 && r.value[0] == '{' && r.value[|r.value| - 1] == '}'
    ensures r.Some? ==>
      && BraceBounds(text).Some?
      && text == text[..BraceBounds(text).value.0] + r.value + text[BraceBounds(text).value.1 + 1..]
  {
    var b := BraceBounds(text);
    if b.None? then None
    else
      var i := b.value.0;
      var j := b.value.1;
      SplitAround(text, i, j);
      Some(text[i..j + 1])
  }

  lemma SplitAround(text: string, i: nat, j: nat)
    requires i <= j < |text|
    ensures text == text[..i] + text[i..j + 1] + text[j + 1..]
  {
    assert text[..i] + text[i..j + 1] == text[..j + 1];
  }

  /** `safe_json_extract`: the span handed to the parser; no span, or a
      span the parser rejects, gives None instead of an exception. */
  function SafeJsonExtract(text: string, parse: string -> Option<Dict>): (r: Option<Dict>)
    ensures !HasBracePair(text) ==> r.None?
    ensures r.Some? ==> BraceSpan(text).Some? && parse(BraceSpan(text).value) == r
    ensures BraceSpan(text).Some? ==> r == parse(BraceSpan(text).value)
  {
    match BraceSpan(text)
    case None => None
    case Some(span) => parse(span)
  }

  /** The span is greedy: it runs to the LAST closing brace. */
  lemma BraceSpanExample()
    ensures BraceSpan("x{a}b}") == Some("{a}b}")
    ensures BraceSpan("}{") == None
  {
    var t := "x{a}b}";
    assert t[1] == '{' && t[5] == '}';
    assert HasBracePair(t);
    var (i, j) := BraceBounds(t).value;
    assert t[0] != '{' && t[1] == '{';
    assert i == 1;
    assert j == 5;
    assert t[1..6] == "{a}b}";
  }

  // ----------------------------------------------------------------------
  // normalize_signals
  // ----------------------------------------------------------------------

  const SignalKeys: set<string> := {"grade", "program_interest", "urgency", "budget_signal", "intent"}

  /** One `if normalized[k]: normalized[k] = normalized[k].capitalize()`:
      a truthy non-string has no `capitalize` and raises AttributeError. */
  function CapitalizeField(v: Value): (r: Completion<Value>)
    ensures !Truthy(v) ==> r == Returned(v)
    ensures Truthy(v) && v.JStr? ==> r == Returned(JStr(Capitalize(v.s)))
    ensures r.Raised? <==> Truthy(v) && !v.JStr?
  {
    if !Truthy(v) then Returned(v)
    else if v.JStr? then Returned(JStr(Capitalize(v.s)))
    else Raised
  }

  /** The shape `normalize_signals` guarantees: exactly the five keys, and
      urgency, budget_signal and intent either falsy or capitalized strings. */
  predicate Canonical(n: Dict) {
    && n.Keys == SignalKeys
    && CanonicalField(n["urgency"])
    && CanonicalField(n["budget_signal"])
    && CanonicalField(n["intent"])
  }

  predicate CanonicalField(v: Value) {
    !Truthy(v) || (v.JStr? && IsCapitalized(v.s))
  }

  /** A value `capitalize` cannot be called on. */
  predicate Uncapitalizable(v: Value) {
    Truthy(v) && !v.JStr?
  }

  /** `normalize_signals`: None for a falsy input, else the five keys with
      three of them capitalized. Extra keys are dropped, missing ones become
      None. */
  function NormalizeSignals(data: Option<Dict>): (r: Completion<Option<Dict>>)
    ensures (data.None? || |data.value| == 0) ==> r == Returned(None)
    ensures data.Some? && |data.value| > 0 ==>
      (r.Raised? <==> Uncapitalizable(Get(data.value, "urgency"))
                      || Uncapitalizable(Get(data.value, "budget_signal"))
                      || Uncapitalizable(Get(data.value, "intent")))
    ensures r.Returned? && data.Some? && |data.value| > 0 ==>
      && r.value.Some?
      && Canonical(r.value.value)
      && r.value.value["grade"] == Get(data.value, "grade")
      && r.value.value["program_interest"] == Get(data.value, "program_interest")
      && r.value.value["urgency"] == CapitalizeField(Get(data.value, "urgency")).value
      && r.value.value["budget_signal"] == CapitalizeField(Get(data.value, "budget_signal")).value
      && r.value.value["intent"] == CapitalizeField(Get(data.value, "intent")).value
  {
    if data.None? || |data.value| == 0 then Returned(None)
    else
      var d := data.value;
      var u := CapitalizeField(Get(d, "urgency"));
      var b := CapitalizeField(Get(d, "budget_signal"));
      var i := CapitalizeField(Get(d, "intent"));
      if u.Raised? || b.Raised? || i.Raised? then Raised
      else
        CapitalizeFixesCapitalizedValue(Get(d, "urgency"));
        CapitalizeFixesCapitalizedValue(Get(d, "budget_signal"));
        CapitalizeFixesCapitalizedValue(Get(d, "intent"));
        Returned(Some(map["grade" := Get(d, "grade"),
                          "program_interest" := Get(d, "program_interest"),
                          "urgency" := u.value,
                          "budget_signal" := b.value,
                          "intent" := i.value]))
  }

  lemma CapitalizeFixesCapitalizedValue(v: Value)
    requires CapitalizeField(v).Returned?
    ensures CanonicalField(CapitalizeField(v).value)
  {
    if Truthy(v) {
      CapitalizeFixesCapitalized(v.s);
    }
  }

  lemma CanonicalFieldFixed(v: Value)
    requires CanonicalField(v)
    ensures CapitalizeField(v) == Returned(v)
  {
    if Truthy(v) {
      CapitalizeFixesCapitalized(v.s);
    }
  }

  /** A canonical dict is a fixed point of normalisation. */
  lemma CanonicalIsFixedPoint(n: Dict)
    requires Canonical(n)
    ensures NormalizeSignals(Some(n)) == Returned(Some(n))
  {
    assert "grade" in n;
    CanonicalFieldFixed(n["urgency"]);
    CanonicalFieldFixed(n["budget_signal"]);
    CanonicalFieldFixed(n["intent"]);
    var m := NormalizeSignals(Some(n)).value.value;
    assert m.Keys == n.Keys;
    assert m["grade"] == n["grade"] && m["program_interest"] == n["program_interest"];
    assert m["urgency"] == n["urgency"] && m["budget_signal"] == n["budget_signal"] && m["intent"] == n["intent"];
    assert forall k | k in n :: m[k] == n[k];
    assert m == n;
  }

  /** Normalising a normalised dict changes nothing. */
  lemma NormalizeIdempotent(data: Option<Dict>)
    requires NormalizeSignals(data).Returned? && NormalizeSignals(data).value.Some?
    ensures NormalizeSignals(Some(NormalizeSignals(data).value.value)) == NormalizeSignals(data)
  {
    CanonicalIsFixedPoint(NormalizeSignals(data).value.value);
  }

  /** The rest of the string is lower-cased too: "hIGH" becomes "High". */
  lemma NormalizeExample()
    ensures NormalizeSignals(Some(map["urgency" := JStr("hIGH"), "extra" := JFloat(Finite(1.0))]))
            == Returned(Some(map["grade" := JNull, "program_interest" := JNull,
                                 "urgency" := JStr("High"), "budget_signal" := JNull, "intent" := JNull]))
  {
    assert Capitalize("hIGH") == "High";
  }

  // ----------------------------------------------------------------------
  // extract_lead_signals
  // ----------------------------------------------------------------------

  /** `extract_lead_signals` from the model's reply onwards: a failed call,
      no parsable object, an empty object or a failing normalisation all
      give None. */
  function ExtractLeadSignals(reply: Option<string>, parse: string -> Option<Dict>): (r: Option<Dict>)
    ensures reply.None? ==> r.None?
    ensures r.Some? ==> Canonical(r.value)
    ensures r.Some? ==> && SafeJsonExtract(Strip(reply.value), parse).Some?
                        && |SafeJsonExtract(Strip(reply.value), parse).value| > 0
                        && NormalizeSignals(SafeJsonExtract(Strip(reply.value), parse)) == Returned(r)
    ensures reply.Some? ==>
      var p := SafeJsonExtract(Strip(reply.value), parse);
      (p.None? || |p.value| == 0 || NormalizeSignals(p).Raised? ==> r.None?)
      && (p.Some? && |p.value| > 0 && NormalizeSignals(p).Returned? ==> r == NormalizeSignals(p).value)
  {
    if reply.None? then None
    else
      var parsed := SafeJsonExtract(Strip(reply.value), parse);
      if parsed.None? || |parsed.value| == 0 then None
      else
        match NormalizeSignals(parsed)
        case Raised => None
        case Returned(n) => n
  }

  /** Whatever extraction returns, normalising it again changes nothing. */
  lemma ExtractedSignalsAreNormal(reply: Option<string>, parse: string -> Option<Dict>)
    requires ExtractLeadSignals(reply, parse).Some?
    ensures NormalizeSignals(ExtractLeadSignals(reply, parse)) == Returned(ExtractLeadSignals(reply, parse))
  {
    CanonicalIsFixedPoint(ExtractLeadSignals(reply, parse).value);
  }
}

=== FILE: analytics.dfy ===
/** `get_pipeline_counts` of `app/analytics.py`, over the rows of
    `get_all_leads`. The source groups on column 8, which the schema of
    `app/database.py` makes `program_interest`; the stage is column 12. */
module Analytics {

  import opened PyValues
  import opened Database

  /** A `leads` row as the tuple `SELECT *` returns, `created_at` left off:
      0 id, 1 name, 2 email, 3 phone, 4 user_type, 5 grade, 6 interest,
      7 urgency, 8 program_interest, 9 budget_signal, 10 extracted_intent,
      11 lead_score, 12 pipeline_stage. */
  function Columns(row: Row): (cols: seq<Value>)
    ensures |cols| == 13
    ensures cols[8] == row.lead.programInterest
    ensures cols[12] == JStr(row.lead.stage)
  {
    var l := row.lead;
    [JInt(row.id), JStr(l.name), JStr(l.email), JStr(l.phone), JStr(l.userType),
     l.grade, l.interest, l.urgency, l.programInterest, l.budgetSignal, l.extractedIntent,
     JInt(l.score), JStr(l.stage)]
  }

  /** Column `c` of every row, in order. */
  function Project(rows: seq<Row>, c: nat): (keys: seq<Value>)
    requires c < 13
    ensures |keys| == |rows|
    ensures forall i | 0 <= i < |rows| :: keys[i] == Columns(rows[i])[c]
  {
    seq(|rows|, i requires 0 <= i < |rows| => Columns(rows[i])[c])
  }

  /** How many times `k` occurs in `keys`. */
  function Occurrences<K(==)>(keys: seq<K>, k: K): (n: nat)
    ensures n <= |keys|
    ensures n == 0 <==> k !in keys
  {
    if |keys| == 0 then 0
    else Occurrences(keys[..|keys| - 1], k) + (if keys[|keys| - 1] == k then 1 else 0)
  }

  /** The dict the loop builds with `d[k] = d.get(k, 0) + 1`. */
  function Tally<K(==,!new)>(keys: seq<K>): map<K, nat>
  {
    if |keys| == 0 then map[]
    else
      var m := Tally(keys[..|keys| - 1]);
      var k := keys[|keys| - 1];
      m[k := (if k in m then m[k] else 0) + 1]
  }

  /** The keys of the tally are the values counted, each mapped to its
      number of occurrences. */
  lemma {:induction false} TallyCounts<K(!new)>(keys: seq<K>)
    ensures forall k :: k in Tally(keys) <==> k in keys
    ensures forall k | k in Tally(keys) :: Tally(keys)[k] == Occurrences(keys, k)
  {
    if |keys| > 0 {
      var prefix := keys[..|keys| - 1];
      var k := keys[|keys| - 1];
      TallyCounts(prefix);
      assert keys == prefix + [k];
      assert forall k' :: k' in keys <==> k' in prefix || k' == k;
    }
  }

  /** Sum of the counts of a histogram. */
  ghost function SumValues<K(!new)>(m: map<K, nat>): nat
    decreases |m|
  {
    if |m| == 0 then 0
    else
      var k := Pick(m);
      m[k] + SumValues(m - {k})
  }

  /** Some key of a non-empty map. */
  ghost function Pick<K(!new)>(m: map<K, nat>): (k: K)
    requires |m| > 0
    ensures k in m
  {
    assert m.Keys != {} by { assert |m.Keys| == |m|; }
    var k :| k in m; k
  }

  /** Any key may be taken out first. */
  lemma {:induction false} SumValuesRemove<K(!new)>(m: map<K, nat>, k: K)
    requires k in m
    ensures SumValues(m) == m[k] + SumValues(m - {k})
    decreases |m|
  {
    var k' := Pick(m);
    if k' != k {
      var m1 := m - {k'};
      var m2 := m - {k};
      assert m1.Keys == m.Keys - {k'};
      assert m2.Keys == m.Keys - {k};
      SumValuesRemove(m1, k);
      SumValuesRemove(m2, k');
      assert m1 - {k} == m2 - {k'};
    }
  }

  lemma SumValuesUpdate<K(!new)>(m: map<K, nat>, k: K, v: nat)
    ensures k in m ==> SumValues(m[k := v]) == SumValues(m) - m[k] + v
    ensures k !in m ==> SumValues(m[k := v]) == SumValues(m) + v
  {
    var m' := m[k := v];
    SumValuesRemove(m', k);
    assert m' - {k} == m - {k};
    if k in m {
      SumValuesRemove(m, k);
    } else {
      assert m - {k} == m;
    }
  }

  /** The counts add up to the number of keys counted. */
  lemma {:induction false} TallySum<K(!new)>(keys: seq<K>)
    ensures SumValues(Tally(keys)) == |keys|
  {
    if |keys| > 0 {
      var prefix := keys[..|keys| - 1];
      TallySum(prefix);
      var m := Tally(prefix);
      var k := keys[|keys| - 1];
      var v: nat := (if k in m then m[k] else 0) + 1;
      assert Tally(keys) == m[k := v];
      SumValuesUpdate(m, k, v);
    }
  }

  /** `get_pipeline_counts` as written: grouped on column 8. */
  function GetPipelineCounts(rows: seq<Row>): (counts: map<Value, nat>)
    ensures |rows| == 0 ==> counts == map[]
    ensures forall k :: k in counts <==> exists i | 0 <= i < |rows| :: rows[i].lead.programInterest == k
    ensures forall k | k in counts :: counts[k] == Occurrences(Project(rows, 8), k)
  {
    var keys := Project(rows, 8);
    assert forall k :: k in keys <==> exists i | 0 <= i < |rows| :: rows[i].lead.programInterest == k;
    TallyCounts(keys);
    Tally(keys)
  }

  /** The counts sum to the number of leads. */
  lemma PipelineCountsSum(rows: seq<Row>)
    ensures SumValues(GetPipelineCounts(rows)) == |rows|
  {
    TallySum(Project(rows, 8));
  }

  /** Two leads, Warm and Hot, both with NULL program interest, as every
      lead has until a signal supplies one. */
  function TwoLeads(): seq<Row>
  {
    [Row(1, Lead("A", "a@x.com", "1", "Parent", JNull, JNull, JNull, JNull, JNull, JNull, 40, "Warm")),
     Row(2, Lead("B", "b@x.com", "2", "School", JNull, JNull, JNull, JNull, JNull, JNull, 95, "Hot"))]
  }

  /** Both leads land under the one NULL key: the histogram does not show
      stages. */
  lemma PipelineCountsIgnoreStage()
    ensures GetPipelineCounts(TwoLeads()) == map[JNull := 2]
  {
    var rows := TwoLeads();
    var keys := Project(rows, 8);
    assert keys == [JNull, JNull];
    assert keys[..1] == [JNull];
    assert Occurrences(keys, JNull) == 2;
    var c := GetPipelineCounts(rows);
    assert c.Keys == {JNull};
  }

  /** Grouped on the stage the same two leads count one Warm and one Hot. */
  lemma StageCountsSeparateStages()
    ensures StageCounts(TwoLeads()) == map[JStr("Warm") := 1, JStr("Hot") := 1]
  {
    var rows := TwoLeads();
    var stages := Project(rows, 12);
    assert stages == [JStr("Warm"), JStr("Hot")];
    assert stages[..1] == [JStr("Warm")];
    assert stages[..1][..0] == [];
    var first := Tally(stages[..1]);
    assert Tally(stages[..1][..0]) == map[];
    assert first == map[][JStr("Warm") := 1];
    assert "Warm" != "Hot" by { assert "Warm"[0] != "Hot"[0]; }
    assert Tally(stages) == first[JStr("Hot") := 1];
  }

  /** The intended histogram: grouped on the stage, column 12. */
  function StageCounts(rows: seq<Row>): (counts: map<Value, nat>)
    ensures |rows| == 0 ==> counts == map[]
    ensures forall s: string :: JStr(s) in counts <==> exists i | 0 <= i < |rows| :: rows[i].lead.stage == s
    ensures forall k | k in counts :: k.JStr?
    ensures forall s: string | JStr(s) in counts ::
              counts[JStr(s)] == Occurrences(Project(rows, 12), JStr(s))
  {
    var keys := Project(rows, 12);
    assert forall k :: k in keys <==> exists i | 0 <= i < |rows| :: JStr(rows[i].lead.stage) == k;
    TallyCounts(keys);
    Tally(keys)
  }

  /** The stage counts sum to the number of leads. */
  lemma StageCountsSum(rows: seq<Row>)
    ensures SumValues(StageCounts(rows)) == |rows|
  {
    TallySum(Project(rows, 12));
  }
}

=== FILE: app_flow.dfy ===
/** The parts of `app/main.py` that change the CRM: the chat turn's signal
    step, the lead-capture form and the demo-booking form, as transitions of
    one browser session over the store. Rendering is left out; the replies
    of the language model are inputs. */
module AppFlow {

  import opened Wrappers
  import opened PyValues
  import opened PyText
  import opened Database
  import LeadManager
  import ChatEngine

  /** The session-state keys the three branches read and write. */
  datatype Session = Session(
    userType: Option<string>,
    lastUserInput: string,
    userEmail: Option<string>,
    leadCaptured: bool,
    crmData: Option<Row>)

  /** The defaults a fresh session starts from. */
  const FreshSession := Session(None, "", None, false, None)

  /** `st.session_state.user_type or "Unknown"`. */
  function SessionUserType(userType: Option<string>): (r: string)
    ensures userType.None? || userType == Some("") ==> r == "Unknown"
    ensures userType.Some? && userType.value != "" ==> r == userType.value
    ensures r != ""
  {
    if userType.None? || userType.value == "" then "Unknown" else userType.value
  }

  /** `if st.session_state.user_email:` */
  predicate HasEmail(session: Session) {
    session.userEmail.Some? && session.userEmail.value != ""
  }

  // ----------------------------------------------------------------------
  // Lead capture
  // ----------------------------------------------------------------------

  datatype Capture = Captured(total: int) | MissingFields | FormHidden

  /** The lead-capture form: shown only until a lead is captured; saves the
      lead only when name, email and phone are all non-blank after `strip`,
      passing the session's user type (or "Unknown") and its last message
      as the intent; then remembers the email and the fresh CRM row. */
  function CaptureLead(st: Store, session: Session, name: string, email: string, phone: string)
    : (r: (Store, Session, Capture))
    requires st.Valid()
    ensures r.0.Valid() && r.0.bookings == st.bookings
    ensures r.2.FormHidden? <==> session.leadCaptured
    ensures r.2.MissingFields? <==>
      !session.leadCaptured && (AllSpace(name) || AllSpace(email) || AllSpace(phone))
    ensures !r.2.Captured? ==> r.0 == st && r.1 == session
    ensures r.2.Captured? ==>
      && LeadManager.ScoreOf(r.0, email)
           == LeadManager.ScoreOf(st, email) + LeadManager.BaseScore(Some(SessionUserType(session.userType)))
      && r.2.total == LeadManager.ScoreOf(r.0, email)
      && r.1 == session.(userEmail := Some(email), leadCaptured := true, crmData := GetLeadByEmail(r.0, email))
      && r.1.crmData.Some? && r.1.crmData.value.lead.email == email
    ensures r.2.Captured? ==>
      && r.0.leads.Keys <= st.leads.Keys + {st.nextId}
      && forall id | id in st.leads && st.leads[id].email != email :: id in r.0.leads && r.0.leads[id] == st.leads[id]
    ensures r.2.Captured? && EmailTaken(st, email) ==>
      var prev := GetLeadByEmail(st, email).value;
      r.1.crmData == Some(Row(prev.id, prev.lead.(score := r.2.total, stage := LeadManager.PipelineStage(r.2.total))))
    ensures r.2.Captured? && !EmailTaken(st, email) ==>
      r.1.crmData == Some(Row(st.nextId, NewLead(name, email, phone, SessionUserType(session.userType),
                                                 None, None, None, None, None, None, r.2.total)
                                         .(stage := LeadManager.PipelineStage(r.2.total))))
  {
    StripEmptyIffAllSpace(name);
    StripEmptyIffAllSpace(email);
    StripEmptyIffAllSpace(phone);
    if session.leadCaptured then (st, session, FormHidden)
    else if Strip(name) != "" && Strip(email) != "" && Strip(phone) != "" then
      var userType := SessionUserType(session.userType);
      var saved := LeadManager.SaveLead(st, name, email, phone, userType,
                                        Some(session.lastUserInput), None, None);
      LeadManager.SaveLeadScoreAdditive(st, name, email, phone, userType,
                                        Some(session.lastUserInput), None, None);
      LeadManager.SaveLeadRow(st, name, email, phone, userType, Some(session.lastUserInput), None, None);
      var st1 := saved.0;
      (st1, session.(userEmail := Some(email), leadCaptured := true, crmData := GetLeadByEmail(st1, email)),
       Captured(saved.1))
    else (st, session, MissingFields)
  }

  /** Without a detected user type the capture scores the lead 10 more. */
  lemma CaptureWithoutTypeAddsTen(st: Store, session: Session, name: string, email: string, phone: string)
    requires st.Valid()
    requires session.userType.None? && !session.leadCaptured
    requires !AllSpace(name) && !AllSpace(email) && !AllSpace(phone)
    ensures var r := CaptureLead(st, session, name, email, phone);
            r.2.Captured? && LeadManager.ScoreOf(r.0, email) == LeadManager.ScoreOf(st, email) + 10
  {
  }

  // ----------------------------------------------------------------------
  // Demo booking
  // ----------------------------------------------------------------------

  datatype BookingStatus = Confirmed | SlotTaken | LeadNotFound

  /** The booking form's handler for the session's email: look the lead up,
      check the slot across all leads, then insert the booking, force the
      stage to "Booked" and add 30 to the score. */
  function BookDemo(st: Store, email: string, date: string, time: string, mode: string)
    : (r: (Store, BookingStatus))
    requires st.Valid()
    ensures r.1 == LeadNotFound <==> !EmailTaken(st, email)
    ensures r.1 == SlotTaken <==> EmailTaken(st, email) && !IsSlotAvailable(st, date, time)
    ensures r.1 != Confirmed ==> r.0 == st
    ensures r.1 == Confirmed ==>
      var row := GetLeadByEmail(st, email).value;
      && r.0.bookings == st.bookings + [Booking(row.id, date, time, mode, "Scheduled")]
      && r.0.leads == st.leads[row.id := row.lead.(stage := "Booked", score := row.lead.score + 30)]
      && r.0.nextId == st.nextId
    ensures r.0.Valid()
  {
    match GetLeadByEmail(st, email)
    case None => (st, LeadNotFound)
    case Some(lead) =>
      if IsSlotAvailable(st, date, time) then
        var st1 := SaveBooking(st, lead.id, date, time, mode);
        var st2 := UpdatePipelineStage(st1, lead.id, "Booked");
        var st3 := IncreaseLeadScore(st2, lead.id, 30);
        assert st3.leads == st.leads[lead.id := lead.lead.(stage := "Booked", score := lead.lead.score + 30)];
        (st3, Confirmed)
      else (st, SlotTaken)
  }

  /** A booking never puts two bookings on one (date, time) slot. */
  lemma {:induction false} BookDemoKeepsSlotsExclusive(st: Store, email: string, date: string, time: string, mode: string)
    requires st.Valid() && SlotExclusive(st.bookings)
    ensures SlotExclusive(BookDemo(st, email, date, time, mode).0.bookings)
  {
    var r := BookDemo(st, email, date, time, mode);
    if r.1 == Confirmed {
      var n := |st.bookings|;
      assert IsSlotAvailable(st, date, time);
      forall i, j | 0 <= i < j < |r.0.bookings|
        ensures !(r.0.bookings[i].date == r.0.bookings[j].date && r.0.bookings[i].time == r.0.bookings[j].time)
      {
        if j == n {
          assert !HoldsSlot(st.bookings[i], date, time);
        } else {
          assert r.0.bookings[i] == st.bookings[i] && r.0.bookings[j] == st.bookings[j];
        }
      }
    }
  }

  /** Booking the same slot twice, by any two leads: the second attempt
      finds it taken and changes nothing. */
  lemma SecondBookingOfSlotIsRefused(st: Store, e1: string, e2: string, date: string, time: string,
                                     m1: string, m2: string)
    requires st.Valid()
    requires BookDemo(st, e1, date, time, m1).1 == Confirmed
    requires EmailTaken(st, e2)
    ensures var st1 := BookDemo(st, e1, date, time, m1).0;
            BookDemo(st1, e2, date, time, m2) == (st1, SlotTaken)
  {
    var st1 := BookDemo(st, e1, date, time, m1).0;
    var id :| id in st.leads && st.leads[id].email == e2;
    assert id in st1.leads && st1.leads[id].email == e2;
    assert HoldsSlot(st1.bookings[|st.bookings|], date, time);
  }

  // ----------------------------------------------------------------------
  // One session
  // ----------------------------------------------------------------------

  /** What the user does in one script run: send a chat message (with the
      extraction model's reply to it), submit the lead form, or submit the
      booking form. */
  datatype Request =
    | Chat(message: string, extraction: Option<string>)
    | Register(name: string, email: string, phone: string)
    | Book(date: string, time: string, mode: string)

  /** One script run. A chat message records the message and any detected
      user type, refreshes the CRM row when an email is known, and runs the
      signal step; if that raises, the store is left as it was. */
  function Step(st: Store, session: Session, req: Request, parse: string -> Option<Dict>)
    : (r: (Store, Session))
    requires st.Valid()
    ensures r.0.Valid()
    ensures req.Chat? ==> r.0.bookings == st.bookings
    ensures req.Register? ==> r.0.bookings == st.bookings
    ensures req.Book? && !HasEmail(session) ==> r == (st, session)
    ensures |r.0.bookings| >= |st.bookings| && r.0.bookings[..|st.bookings|] == st.bookings
  {
    match req
    case Chat(message, extraction) =>
      var detected := ChatEngine.ClassifyUserType(message);
      var s1 := session.(lastUserInput := message,
                         userType := if detected.Some? then detected else session.userType);
      var crm := if HasEmail(s1) then GetLeadByEmail(st, s1.userEmail.value) else s1.crmData;
      var s2 := s1.(crmData := crm);
      var step := ChatEngine.ChatSignalStep(st, crm, extraction, parse);
      if step.Raised? then (st, s2) else (step.value.0, s2)
    case Register(name, email, phone) =>
      var r := CaptureLead(st, session, name, email, phone);
      (r.0, r.1)
    case Book(date, time, mode) =>
      if !HasEmail(session) then (st, session)
      else
        var email := session.userEmail.value;
        var b := BookDemo(st, email, date, time, mode);
        if b.1 == Confirmed then (b.0, session.(crmData := GetLeadByEmail(b.0, email)))
        else (b.0, session)
  }

  /** The state after a sequence of script runs. */
  function Run(st: Store, session: Session, reqs: seq<Request>, parse: string -> Option<Dict>)
    : (r: (Store, Session))
    requires st.Valid()
    ensures r.0.Valid()
    ensures |r.0.bookings| >= |st.bookings|
    ensures r.0.bookings[..|st.bookings|] == st.bookings
    decreases |reqs|
  {
    if |reqs| == 0 then (st, session)
    else
      var s := Step(st, session, reqs[0], parse);
      Run(s.0, s.1, reqs[1..], parse)
  }

  /** Starting from bookings with no shared slot, any session keeps them
      so: chats and lead capture leave bookings alone, and every booking
      is checked against all leads' bookings first. */
  lemma {:induction false} RunKeepsSlotsExclusive(st: Store, session: Session, reqs: seq<Request>,
                                                  parse: string -> Option<Dict>)
    requires st.Valid() && SlotExclusive(st.bookings)
    ensures SlotExclusive(Run(st, session, reqs, parse).0.bookings)
    decreases |reqs|
  {
    if |reqs| > 0 {
      var s := Step(st, session, reqs[0], parse);
      if reqs[0].Book? && HasEmail(session) {
        BookDemoKeepsSlotsExclusive(st, session.userEmail.value, reqs[0].date, reqs[0].time, reqs[0].mode);
      }
      RunKeepsSlotsExclusive(s.0, s.1, reqs[1..], parse);
    }
  }

  /** From an empty database and a fresh session every reachable state
      has unique emails and exclusive slots. */
  lemma ReachableStatesAreConsistent(reqs: seq<Request>, parse: string -> Option<Dict>)
    ensures var r := Run(EmptyStore, FreshSession, reqs, parse);
            r.0.Valid() && SlotExclusive(r.0.bookings)
  {
    RunKeepsSlotsExclusive(EmptyStore, FreshSession, reqs, parse);
  }
}

=== FILE: build_index.dfy ===
/** `split_text` of `vector_store/build_index.py`: fixed-size chunks that
    overlap by `overlap` characters. */
module BuildIndex {

  import opened PyText

  // ----------------------------------------------------------------------
  // Arithmetic
  // ----------------------------------------------------------------------

  /** Where chunk `k` starts: `k` steps of `step`, counted additively as the
      loop of the source advances `start`. */
  function ChunkStart(k: nat, step: nat): nat
  {
    if k == 0 then 0 else ChunkStart(k - 1, step) + step
  }

  lemma {:induction false} ChunkStartIsProduct(k: nat, step: nat)
    ensures ChunkStart(k, step) == k * step
  {
    if k > 0 {
      ChunkStartIsProduct(k - 1, step);
      assert (k - 1) * step + step == k * step;
    }
  }

  lemma {:induction false} ChunkStartMono(j: nat, k: nat, step: nat)
    requires j <= k
    ensures ChunkStart(j, step) <= ChunkStart(k, step)
    decreases k - j
  {
    if j < k {
      ChunkStartMono(j, k - 1, step);
    }
  }

  /** `ceil(n / step)` for a positive step. */
  function ChunkCount(n: nat, step: nat): nat
    requires step > 0
  {
    if n == 0 then 0 else (n - 1) / step + 1
  }

  /** The last chunk of a non-empty text starts at or before its last
      character, and the next start lies past it. */
  lemma LastStart(n: nat, step: nat)
    requires step > 0 && n > 0
    ensures ChunkStart(ChunkCount(n, step) - 1, step) <= n - 1 < ChunkStart(ChunkCount(n, step), step)
  {
    var q := (n - 1) / step;
    assert q * step + (n - 1) % step == n - 1;
    ChunkStartIsProduct(q, step);
    ChunkStartIsProduct(q + 1, step);
  }

  /** The count is the number of starts that fall inside the text. */
  lemma CountFromStarts(n: nat, step: nat, c: nat)
    requires step > 0 && c > 0
    requires ChunkStart(c - 1, step) < n <= ChunkStart(c, step)
    ensures ChunkCount(n, step) == c
  {
    LastStart(n, step);
    var q := ChunkCount(n, step) - 1;
    if q < c - 1 {
      ChunkStartMono(q + 1, c - 1, step);
    }
    if q > c - 1 {
      ChunkStartMono(c, q, step);
    }
  }

  /** Chunk `k` starts inside the text exactly when `k` is below the count. */
  lemma StartInTextIffBelowCount(n: nat, step: nat, k: nat)
    requires step > 0
    ensures k < ChunkCount(n, step) <==> ChunkStart(k, step) < n
  {
    if n > 0 {
      LastStart(n, step);
      var c := ChunkCount(n, step);
      if k < c {
        ChunkStartMono(k, c - 1, step);
      } else {
        ChunkStartMono(c, k, step);
      }
    }
  }

  /** The chunk holding position `i`: `i // step`. */
  lemma ChunkOfPosition(i: nat, step: nat) returns (k: nat)
    requires step > 0
    ensures ChunkStart(k, step) <= i < ChunkStart(k, step) + step
  {
    k := i / step;
    assert k * step + i % step == i;
    ChunkStartIsProduct(k, step);
  }

  // ----------------------------------------------------------------------
  // split_text
  // ----------------------------------------------------------------------

  /** Chunk number `k`: `text[start : start + chunkSize]`. */
  function Chunk(text: string, chunkSize: int, step: nat, k: nat): string
  {
    Slice(text, ChunkStart(k, step), ChunkStart(k, step) + chunkSize)
  }

  /** `split_text`, with the loop of the source. An empty text never enters
      the loop, whatever the sizes; a non-empty one leaves it only when
      `chunkSize > overlap`, which is therefore required for it. */
  method SplitText(text: string, chunkSize: int, overlap: int) returns (chunks: seq<string>)
    requires |text| == 0 || chunkSize > overlap
    ensures |text| == 0 ==> chunks == []
    ensures chunkSize > overlap ==> |chunks| == ChunkCount(|text|, chunkSize - overlap)
    ensures chunkSize > overlap ==>
      forall k | 0 <= k < |chunks| :: chunks[k] == Chunk(text, chunkSize, chunkSize - overlap, k)
  {
    if |text| == 0 {
      return [];
    }
    var step: nat := chunkSize - overlap;
    chunks := [];
    var start := 0;
    while start < |text|
      invariant start == ChunkStart(|chunks|, step)
      invariant |chunks| > 0 ==> ChunkStart(|chunks| - 1, step) < |text|
      invariant forall k | 0 <= k < |chunks| :: chunks[k] == Chunk(text, chunkSize, step, k)
      decreases |text| - start
    {
      var end := start + chunkSize;
      chunks := chunks + [Slice(text, start, end)];
      start := start + chunkSize - overlap;
    }
    if |chunks| > 0 {
      CountFromStarts(|text|, step, |chunks|);
    }
  }

  /** With a positive chunk size, every chunk is non-empty and at most
      `chunkSize` long; exactly that long when it does not reach the end. */
  lemma ChunkLengths(text: string, chunkSize: int, overlap: int, k: nat)
    requires chunkSize > 0 && chunkSize > overlap
    requires k < ChunkCount(|text|, chunkSize - overlap)
    ensures 0 < |Chunk(text, chunkSize, chunkSize - overlap, k)| <= chunkSize
    ensures ChunkStart(k, chunkSize - overlap) + chunkSize <= |text| ==>
              |Chunk(text, chunkSize, chunkSize - overlap, k)| == chunkSize
  {
    StartInTextIffBelowCount(|text|, chunkSize - overlap, k);
  }

  /** The tail of chunk `k` after `step` characters is the head of chunk
      `k + 1` of length `overlap`. */
  lemma ConsecutiveChunksOverlap(text: string, chunkSize: int, overlap: int, k: nat)
    requires 0 <= overlap < chunkSize
    requires k + 1 < ChunkCount(|text|, chunkSize - overlap)
    ensures var step := chunkSize - overlap;
            var c := Chunk(text, chunkSize, step, k);
            var d := Chunk(text, chunkSize, step, k + 1);
            Slice(c, step, |c|) == Slice(d, 0, overlap)
  {
    var step := chunkSize - overlap;
    StartInTextIffBelowCount(|text|, step, k + 1);
    var s := ChunkStart(k, step);
    assert ChunkStart(k + 1, step) == s + step;
    var n := |text|;
    var e := if s + chunkSize <= n then s + chunkSize else n;
    var c := Chunk(text, chunkSize, step, k);
    assert c == text[s..e];
    var e' := if s + step + chunkSize <= n then s + step + chunkSize else n;
    var d := Chunk(text, chunkSize, step, k + 1);
    assert d == text[s + step..e'];
    assert Slice(c, step, |c|) == text[s + step..e];
    assert Slice(d, 0, overlap) == text[s + step..e];
  }

  /** With no gap between chunks (`overlap >= 0`), every character of the
      text lies in some chunk. */
  lemma ChunksCoverText(text: string, chunkSize: int, overlap: int, i: nat)
    requires 0 <= overlap < chunkSize
    requires i < |text|
    ensures var step := chunkSize - overlap;
            exists k | 0 <= k < ChunkCount(|text|, step) ::
              ChunkStart(k, step) <= i < ChunkStart(k, step) + |Chunk(text, chunkSize, step, k)|
  {
    var step := chunkSize - overlap;
    var k := ChunkOfPosition(i, step);
    StartInTextIffBelowCount(|text|, step, k);
    ChunkLengths(text, chunkSize, overlap, k);
  }

  /** The defaults: 1000 characters with size 500 and overlap 50 make
      three chunks, starting at 0, 450 and 900. */
  lemma DefaultChunking()
    ensures ChunkCount(1000, 500 - 50) == 3
    ensures ChunkStart(1, 450) == 450 && ChunkStart(2, 450) == 900
  {
  }
}

=== FILE: chat_engine.dfy ===
/** The deterministic parts of `app/chat_engine.py`: keyword classification
    of the visitor, the conversation-memory formatter, the stage-to-guidance
    table, and the signal step of `generate_response`. */
module ChatEngine {

  import opened Wrappers
  import opened PyValues
  import opened PyText
  import opened Database
  import opened LeadManager
  import AiExtractor

  // ----------------------------------------------------------------------
  // classify_user_type
  // ----------------------------------------------------------------------

  const SchoolWords: seq<string> := ["school", "principal", "curriculum", "partnership"]
  const ParentWords: seq<string> := ["child", "son", "daughter", "parent", "class"]

  /** `any(word in message for word in words)` */
  function AnyIn(words: seq<string>, message: string): (r: bool)
    ensures r <==> exists k | 0 <= k < |words| :: Contains(message, words[k])
  {
    if |words| == 0 then false
    else Contains(message, words[0]) || AnyIn(words[1..], message)
  }

  /** `classify_user_type`: school keywords are looked for first, then parent
      keywords, as substrings of the lower-cased message. */
  function ClassifyUserType(message: string): (r: Option<string>)
    ensures r.Some? ==> r.value == "School" || r.value == "Parent"
    ensures r == Some("School") <==> AnyIn(SchoolWords, Lower(message))
    ensures r == Some("Parent") <==> !AnyIn(SchoolWords, Lower(message)) && AnyIn(ParentWords, Lower(message))
    ensures r.None? <==> !AnyIn(SchoolWords, Lower(message)) && !AnyIn(ParentWords, Lower(message))
  {
    var m := Lower(message);
    if AnyIn(SchoolWords, m) then Some("School")
    else if AnyIn(ParentWords, m) then Some("Parent")
    else None
  }

  lemma LowerIdempotent(s: string)
    ensures Lower(Lower(s)) == Lower(s)
  {
  }

  lemma LowerConcat(a: string, b: string)
    ensures Lower(a + b) == Lower(a) + Lower(b)
  {
  }

  /** Classification does not depend on letter case. */
  lemma ClassifyIgnoresCase(message: string)
    ensures ClassifyUserType(Lower(message)) == ClassifyUserType(message)
  {
    LowerIdempotent(message);
  }

  /** A keyword anywhere in the message, even inside another word, decides
      the class; a school keyword wins over any parent keyword. */
  lemma EmbeddedKeywordClassifies(before: string, after: string, k: nat)
    ensures k < |SchoolWords| ==> ClassifyUserType(before + SchoolWords[k] + after) == Some("School")
    ensures k < |ParentWords| ==> ClassifyUserType(before + ParentWords[k] + after).Some?
  {
    if k < |SchoolWords| {
      var w := SchoolWords[k];
      var m := Lower(before + w + after);
      LowerConcat(before + w, after);
      LowerConcat(before, w);
      assert Lower(w) == w;
      assert m[|before|..|before| + |w|] == w;
      OccurrenceGivesContains(m, w, |before|);
    }
    if k < |ParentWords| {
      var w := ParentWords[k];
      var m := Lower(before + w + after);
      LowerConcat(before + w, after);
      LowerConcat(before, w);
      assert Lower(w) == w;
      assert m[|before|..|before| + |w|] == w;
      OccurrenceGivesContains(m, w, |before|);
    }
  }

  /** A message without 'h', 'p' or 'u' holds no school keyword. */
  lemma NoSchoolWord(m: string)
    requires 'h' !in m && 'p' !in m && 'u' !in m
    ensures !AnyIn(SchoolWords, m)
  {
    ContainsHasChars(m, "school", 'h');
    ContainsHasChars(m, "principal", 'p');
    ContainsHasChars(m, "curriculum", 'u');
    ContainsHasChars(m, "partnership", 'p');
  }

  /** Substrings count: "classroom" reads as a parent. */
  lemma ClassroomIsParent()
    ensures ClassifyUserType("Classroom") == Some("Parent")
  {
    ClassifyIgnoresCase("Classroom");
    LowerClassroom();
    LowercaseClassroomIsParent();
  }

  lemma LowerClassroom()
    ensures Lower("Classroom") == "classroom"
  {
  }

  lemma LowercaseClassroomIsParent()
    ensures ClassifyUserType("classroom") == Some("Parent")
  {
    var m := "classroom";
    assert "" + ParentWords[4] + "room" == m;
    EmbeddedKeywordClassifies("", "room", 4);
    assert Lower(m) == m;
    NoSchoolWord(m);
  }

  /** "reason" reads as a parent too: it contains "son". */
  lemma ReasonIsParent()
    ensures ClassifyUserType("reason") == Some("Parent")
  {
    EmbeddedKeywordClassifies("rea", "", 2);
    assert Lower("reason") == "reason";
    NoSchoolWord("reason");
  }

  /** A school keyword wins over a parent keyword. */
  lemma SchoolBeatsParent()
    ensures ClassifyUserType("My CHILD's school") == Some("School")
  {
    assert "My CHILD's " + SchoolWords[0] + "" == "My CHILD's school";
    EmbeddedKeywordClassifies("My CHILD's ", "", 0);
  }

  /** A message with no keyword is left unclassified. */
  lemma NoKeywordIsUnclassified()
    ensures ClassifyUserType("hi") == None
  {
    assert Lower("hi") == "hi";
  }

  // ----------------------------------------------------------------------
  // format_chat_history
  // ----------------------------------------------------------------------

  /** A history entry: (role, message). The assistant's message is the
      model reply's `text`, which is None for a reply without a text part. */
  type Entry = (string, Option<string>)

  /** `f"{message}"`: Python formats None as "None". */
  function MessageText(message: Option<string>): (t: string)
    ensures message.Some? ==> t == message.value
    ensures message.None? ==> t == "None"
  {
    if message.None? then "None" else message.value
  }

  /** `chat_history[-max_turns * 2:]` */
  function HistoryWindow(history: seq<Entry>, maxTurns: int): (w: seq<Entry>)
    ensures maxTurns == 0 ==> w == history
    ensures maxTurns > 0 && 2 * maxTurns <= |history| ==> w == history[|history| - 2 * maxTurns..]
    ensures maxTurns > 0 && 2 * maxTurns > |history| ==> w == history
    ensures maxTurns < 0 && -2 * maxTurns <= |history| ==> w == history[-2 * maxTurns..]
    ensures maxTurns < 0 && -2 * maxTurns > |history| ==> w == []
  {
    SliceFrom(history, -maxTurns * 2)
  }

  /** The line one entry contributes. */
  function Line(e: Entry): string {
    if e.0 == "user" then "User: " + MessageText(e.1) + "\n" else "Assistant: " + MessageText(e.1) + "\n"
  }

  /** The lines of the entries, in order. */
  function Lines(entries: seq<Entry>): (ls: seq<string>)
    ensures |ls| == |entries|
    ensures forall i | 0 <= i < |entries| :: ls[i] == Line(entries[i])
  {
    seq(|entries|, i requires 0 <= i < |entries| => Line(entries[i]))
  }

  /** The strings joined end to end. */
  function Concat(ls: seq<string>): string
  {
    if |ls| == 0 then "" else Concat(ls[..|ls| - 1]) + ls[|ls| - 1]
  }

  function Render(entries: seq<Entry>): string
  {
    Concat(Lines(entries))
  }

  lemma {:induction false} ConcatAppend(a: seq<string>, b: seq<string>)
    ensures Concat(a + b) == Concat(a) + Concat(b)
    decreases |b|
  {
    if |b| == 0 {
      assert a + b == a;
    } else {
      var b' := b[..|b| - 1];
      var ab := a + b;
      assert ab[..|ab| - 1] == a + b';
      ConcatAppend(a, b');
    }
  }

  /** Rendering distributes over concatenation, so the output is one line
      per entry in history order. */
  lemma RenderConcat(a: seq<Entry>, b: seq<Entry>)
    ensures Render(a + b) == Render(a) + Render(b)
    ensures Render([]) == ""
  {
    assert Lines(a + b) == Lines(a) + Lines(b);
    ConcatAppend(Lines(a), Lines(b));
  }

  /** One more entry adds its line at the end. */
  lemma RenderSnoc(entries: seq<Entry>, i: nat)
    requires i < |entries|
    ensures Render(entries[..i + 1]) == Render(entries[..i]) + Line(entries[i])
  {
    var ls := Lines(entries[..i + 1]);
    assert ls[..|ls| - 1] == Lines(entries[..i]);
  }

  /** `format_chat_history`, with the loop of the source. */
  method FormatChatHistory(history: seq<Entry>, maxTurns: int) returns (formatted: string)
    ensures formatted == Render(HistoryWindow(history, maxTurns))
    ensures |HistoryWindow(history, maxTurns)| == 0 ==> formatted == ""
  {
    var recent := HistoryWindow(history, maxTurns);
    formatted := "";
    var i := 0;
    while i < |recent|
      invariant 0 <= i <= |recent|
      invariant formatted == Render(recent[..i])
    {
      var (role, message) := recent[i];
      if role == "user" {
        formatted := formatted + ("User: " + MessageText(message) + "\n");
      } else {
        formatted := formatted + ("Assistant: " + MessageText(message) + "\n");
      }
      RenderSnoc(recent, i);
      i := i + 1;
    }
    assert recent[..i] == recent;
  }

  /** A reply without text is stored as None and rendered as "None". */
  lemma TextlessReplyRendersNone(question: string)
    ensures Render([("user", Some(question)), ("assistant", None)])
            == "User: " + question + "\nAssistant: None\n"
  {
    var h: seq<Entry> := [("user", Some(question)), ("assistant", None)];
    assert Render(h[..0]) == "" by {
      assert Lines(h[..0]) == [];
    }
    RenderSnoc(h, 0);
    assert Line(h[0]) == "User: " + question + "\n";
    assert Line(h[1]) == "Assistant: None\n";
    RenderSnoc(h, 1);
    assert h[..2] == h;
  }

  // ----------------------------------------------------------------------
  // build_sales_guidance
  // ----------------------------------------------------------------------

  /** The guidance the source attaches to each stage. */
  function StageGuidance(stage: string): string {
    if stage == "New" then "Qualify the lead and encourage demo booking."
    else if stage == "Warm" then "Push toward demo booking."
    else if stage == "Qualified" then "Encourage enrollment or close conversion."
    else if stage == "Hot" then "Treat as high-priority and drive immediate action."
    else ""
  }

  /** `build_sales_guidance` of a CRM row (None when there is none). */
  function BuildSalesGuidance(crm: Option<Row>): (r: string)
    ensures crm.None? ==> r == ""
    ensures crm.Some? ==> |r| >= 25 && r[..25] == "Sales Strategy Guidance: "
    ensures crm.Some? ==> (|r| > 25 <==> crm.value.lead.stage in ScoreStages)
    ensures crm.Some? ==> r[25..] == StageGuidance(crm.value.lead.stage)
  {
    if crm.None? then "" else "Sales Strategy Guidance: " + StageGuidance(crm.value.lead.stage)
  }

  /** Every score stage gets its own guidance; "Booked" and any other
      stage get none. */
  lemma GuidanceByStage(stage: string, other: string)
    ensures StageGuidance(stage) != "" <==> stage in ScoreStages
    ensures stage in ScoreStages && other in ScoreStages && stage != other ==>
            StageGuidance(stage) != StageGuidance(other)
    ensures StageGuidance("Booked") == ""
  {
  }

  /** Rows in two different score stages receive different guidance. */
  lemma DistinctStagesDistinctGuidance(a: Row, b: Row)
    requires a.lead.stage in ScoreStages && b.lead.stage in ScoreStages
    ensures BuildSalesGuidance(Some(a)) == BuildSalesGuidance(Some(b)) <==> a.lead.stage == b.lead.stage
  {
    var ra := BuildSalesGuidance(Some(a));
    var rb := BuildSalesGuidance(Some(b));
    GuidanceByStage(a.lead.stage, b.lead.stage);
    if ra == rb {
      assert ra[25..] == rb[25..];
    }
  }

  /** A new lead is to be qualified and pushed toward a demo. */
  lemma NewLeadGuidance(row: Row)
    requires row.lead.stage == "New"
    ensures BuildSalesGuidance(Some(row)) == "Sales Strategy Guidance: " + "Qualify the lead and encourage demo booking."
  {
  }

  /** A lead whose stage matches its score always receives guidance. */
  lemma ScoreStageHasGuidance(id: nat, lead: Lead)
    requires lead.stage == PipelineStage(lead.score)
    ensures BuildSalesGuidance(Some(Row(id, lead))) != "Sales Strategy Guidance: "
  {
    var r := BuildSalesGuidance(Some(Row(id, lead)));
    assert |r| > 25;
  }

  // ----------------------------------------------------------------------
  // Signal step of generate_response
  // ----------------------------------------------------------------------

  /** The body of `if signals:` in the signal step: merge the signals with
      `update_lead_signals`, merge them AGAIN and add their score with
      `apply_ai_signals`, then fetch the CRM row afresh by its email with
      `get_lead_by_email`. */
  function MergeAndScore(st: Store, crm: Row, signals: Dict): (r: Completion<(Store, Option<Row>)>)
    requires st.Valid()
    requires |signals| > 0
    ensures r.Returned? ==> r.value.0.Valid()
    ensures r.Returned? ==> r.value.0.bookings == st.bookings
  {
    match UpdateLeadSignals(st, crm.id, signals)
    case Raised => Raised
    case Returned(st1) =>
      match ApplyAiSignals(st1, crm.id, Some(signals))
      case Raised => Raised
      case Returned(st2) =>
        ApplyAiSignalsValid(st1, crm.id, Some(signals));
        Returned((st2, GetLeadByEmail(st2, crm.lead.email)))
  }

  /** The signal step of `generate_response`: only with a CRM row is the
      extraction model asked; truthy signals are then merged twice and
      scored once. The result is the store and the CRM row the rest of the
      turn sees. */
  function ChatSignalStep(st: Store, crm: Option<Row>, reply: Option<string>,
                          parse: string -> Option<Dict>): (r: Completion<(Store, Option<Row>)>)
    requires st.Valid()
    ensures crm.None? ==> r == Returned((st, crm))
    ensures crm.Some? && AiExtractor.ExtractLeadSignals(reply, parse).None? ==> r == Returned((st, crm))
    ensures r.Returned? ==> r.value.0.Valid()
    ensures r.Returned? ==> r.value.0.bookings == st.bookings
  {
    if crm.None? then Returned((st, crm))
    else
      var signals := AiExtractor.ExtractLeadSignals(reply, parse);
      if NoSignals(signals) then Returned((st, crm))
      else MergeAndScore(st, crm.value, signals.value)
  }

  /** Merging signals and then applying the same signals equals applying
      them alone: the first merge is absorbed by the second. */
  lemma MergeThenApplyIsApply(st: Store, id: nat, s: Dict)
    requires |s| > 0
    requires UpdateLeadSignals(st, id, s).Returned?
    ensures ApplyAiSignals(UpdateLeadSignals(st, id, s).value, id, Some(s)) == ApplyAiSignals(st, id, Some(s))
  {
    UpdateLeadSignalsIdempotent(st, id, s);
  }

  /** The double merge has the effect of one `apply_ai_signals`: the
      lead's signal columns are merged once, the score rises by the signal
      score exactly once, the stage is untouched, and the refreshed row is
      the updated lead. A list or dict among the bound values raises. */
  lemma MergeAndScoreIsOneApply(st: Store, crm: Row, s: Dict)
    requires st.Valid()
    requires |s| > 0
    requires crm.id in st.leads && st.leads[crm.id].email == crm.lead.email
    ensures var r := MergeAndScore(st, crm, s);
            && (r.Raised? <==> exists k | 0 <= k < 5 :: !Bindable(SignalParams(s)[k]))
            && (r.Returned? ==>
                 && ApplyAiSignals(st, crm.id, Some(s)) == Returned(r.value.0)
                 && r.value.1 == Some(Row(crm.id, r.value.0.leads[crm.id])))
  {
    var u := UpdateLeadSignals(st, crm.id, s);
    if u.Returned? {
      MergeThenApplyIsApply(st, crm.id, s);
      var st2 := ApplyAiSignals(st, crm.id, Some(s)).value;
      assert st2.leads[crm.id].email == crm.lead.email;
    }
  }

  /** What a chat turn with signals does to the lead, spelled out: signal
      columns merged, score raised by the signal score, stage unchanged,
      every other lead and all bookings as they were. */
  lemma ChatSignalStepEffect(st: Store, crm: Option<Row>, reply: Option<string>,
                             parse: string -> Option<Dict>)
    requires st.Valid()
    requires crm.Some? && crm.value.id in st.leads && st.leads[crm.value.id].email == crm.value.lead.email
    requires AiExtractor.ExtractLeadSignals(reply, parse).Some?
    requires ChatSignalStep(st, crm, reply, parse).Returned?
    ensures var s := AiExtractor.ExtractLeadSignals(reply, parse).value;
            var st' := ChatSignalStep(st, crm, reply, parse).value.0;
            var id := crm.value.id;
            && st'.leads[id] == MergeSignals(st.leads[id], s).(score := st.leads[id].score + SignalScore(Some(s)))
            && st'.leads[id].stage == st.leads[id].stage
            && (forall other | other in st.leads && other != id :: st'.leads[other] == st.leads[other])
            && st'.bookings == st.bookings
  {
    var s := AiExtractor.ExtractLeadSignals(reply, parse).value;
    assert s.Keys == AiExtractor.SignalKeys;
    assert "grade" in s;
    assert ChatSignalStep(st, crm, reply, parse) == MergeAndScore(st, crm.value, s);
    MergeAndScoreIsOneApply(st, crm.value, s);
  }
}

=== FILE: database.dfy ===
/** The SQLite store of `app/database.py`: the `leads` table as a map from
    row id to `Lead`, the `bookings` table as a sequence in insertion order,
    and the AUTOINCREMENT counter for the next lead id. Connections, commits
    and `created_at` stamps are not modelled. */
module Database {

  import opened Wrappers
  import opened PyValues

  /** One row of `leads`, without its id (the key in `Store.leads`) and
      without `created_at`. The six qualification columns hold whatever
      Python value was bound into them. */
  datatype Lead = Lead(
    name: string,
    email: string,
    phone: string,
    userType: string,
    grade: Value,
    interest: Value,
    urgency: Value,
    programInterest: Value,
    budgetSignal: Value,
    extractedIntent: Value,
    score: int,
    stage: string)

  /** One row of `bookings`, without its id and `created_at`. */
  datatype Booking = Booking(leadId: nat, date: string, time: string, mode: string, status: string)

  /** A row as `get_lead_by_email` returns it: the id and the columns. */
  datatype Row = Row(id: nat, lead: Lead)

  /** The columns `get_bookings_by_lead` selects. */
  datatype BookingView = BookingView(date: string, time: string, mode: string, status: string)

  datatype Store = Store(leads: map<nat, Lead>, bookings: seq<Booking>, nextId: nat)
  {
    /** What every reachable database satisfies: AUTOINCREMENT ids start at
        1 and stay below the counter, and the UNIQUE constraint on `email`. */
    ghost predicate Valid() {
      && nextId >= 1
      && (forall id | id in leads :: 1 <= id < nextId)
      && UniqueEmails(leads)
    }
  }

  ghost predicate UniqueEmails(leads: map<nat, Lead>) {
    forall i, j | i in leads && j in leads && i != j :: leads[i].email != leads[j].email
  }

  /** No two bookings of any leads share a (date, time) slot. */
  ghost predicate SlotExclusive(bookings: seq<Booking>) {
    forall i, j | 0 <= i < j < |bookings| ::
      !(bookings[i].date == bookings[j].date && bookings[i].time == bookings[j].time)
  }

  const EmptyStore := Store(map[], [], 1)

  predicate EmailTaken(st: Store, email: string) {
    exists id | id in st.leads :: st.leads[id].email == email
  }

  // ----------------------------------------------------------------------
  // Leads
  // ----------------------------------------------------------------------

  /** The row `save_lead` inserts: the supplied identity, score and optional
      text columns, and stage "New". */
  function NewLead(name: string, email: string, phone: string, userType: string,
                   grade: Option<string>, interest: Option<string>,
                   urgency: Option<string>, programInterest: Option<string>,
                   budgetSignal: Option<string>, extractedIntent: Option<string>,
                   leadScore: int): Lead
  {
    Lead(name, email, phone, userType,
         OptText(grade), OptText(interest), OptText(urgency),
         OptText(programInterest), OptText(budgetSignal), OptText(extractedIntent),
         leadScore, "New")
  }

  /** `save_lead`: INSERT a lead; a duplicate email violates UNIQUE, the
      IntegrityError is swallowed and nothing is written. */
  function SaveLead(st: Store, name: string, email: string, phone: string, userType: string,
                    grade: Option<string>, interest: Option<string>,
                    urgency: Option<string>, programInterest: Option<string>,
                    budgetSignal: Option<string>, extractedIntent: Option<string>,
                    leadScore: int): (r: Store)
    requires st.Valid()
    ensures r.Valid()
    ensures EmailTaken(st, email) ==> r == st
    ensures !EmailTaken(st, email) ==>
      && r.leads.Keys == st.leads.Keys + {st.nextId}
      && st.nextId !in st.leads
      && r.leads[st.nextId].email == email
      && r.leads[st.nextId].score == leadScore
      && r.leads[st.nextId].stage == "New"
      && r.leads[st.nextId] == NewLead(name, email, phone, userType, grade, interest,
                                       urgency, programInterest, budgetSignal,
                                       extractedIntent, leadScore)
      && (forall id | id in st.leads :: r.leads[id] == st.leads[id])
      && r.bookings == st.bookings
      && r.nextId == st.nextId + 1
    ensures EmailTaken(r, email)
  {
    if EmailTaken(st, email) then st
    else
      var lead := NewLead(name, email, phone, userType, grade, interest,
                          urgency, programInterest, budgetSignal, extractedIntent, leadScore);
      st.(leads := st.leads[st.nextId := lead], nextId := st.nextId + 1)
  }

  /** The first id in [lo, hi) whose lead has this email (SQLite scans
      rows in id order). */
  function ScanEmail(leads: map<nat, Lead>, email: string, lo: nat, hi: nat): (r: Option<nat>)
    ensures r.Some? ==> lo <= r.value < hi && r.value in leads && leads[r.value].email == email
    ensures r.Some? ==> forall id | lo <= id < r.value && id in leads :: leads[id].email != email
    ensures r.None? ==> forall id | lo <= id < hi && id in leads :: leads[id].email != email
    decreases hi - lo
  {
    if lo >= hi then None
    else if lo in leads && leads[lo].email == email then Some(lo)
    else ScanEmail(leads, email, lo + 1, hi)
  }

  /** `get_lead_by_email`: the row holding this email, or None. */
  function GetLeadByEmail(st: Store, email: string): (r: Option<Row>)
    requires st.Valid()
    ensures r.None? <==> !EmailTaken(st, email)
    ensures r.Some? ==> r.value.id in st.leads && r.value.lead == st.leads[r.value.id]
    ensures r.Some? ==> r.value.lead.email == email
    ensures r.Some? ==> forall id | id in st.leads && st.leads[id].email == email :: id == r.value.id
  {
    match ScanEmail(st.leads, email, 1, st.nextId)
    case None => None
    case Some(id) => Some(Row(id, st.leads[id]))
  }

  /** `update_pipeline_stage`: store any string as the lead's stage; an
      unknown id matches no row. */
  function UpdatePipelineStage(st: Store, id: nat, stage: string): (r: Store)
    ensures r.leads.Keys == st.leads.Keys
    ensures id in st.leads ==> r.leads[id] == st.leads[id].(stage := stage)
    ensures forall other | other in st.leads && other != id :: r.leads[other] == st.leads[other]
    ensures r.bookings == st.bookings && r.nextId == st.nextId
  {
    if id in st.leads then st.(leads := st.leads[id := st.leads[id].(stage := stage)]) else st
  }

  /** `increase_lead_score`: add the increment to the lead's score only. */
  function IncreaseLeadScore(st: Store, id: nat, increment: int): (r: Store)
    ensures r.leads.Keys == st.leads.Keys
    ensures id in st.leads ==> r.leads[id] == st.leads[id].(score := st.leads[id].score + increment)
    ensures forall other | other in st.leads && other != id :: r.leads[other] == st.leads[other]
    ensures r.bookings == st.bookings && r.nextId == st.nextId
  {
    if id in st.leads
    then st.(leads := st.leads[id := st.leads[id].(score := st.leads[id].score + increment)])
    else st
  }

  /** `COALESCE(?, col)` with `incoming` bound to `?`: SQL NULL (Python's
      None, or a NaN float, which binds as NULL) keeps the old value;
      anything else, the empty string included, replaces it. */
  function Coalesce(incoming: Value, stored: Value): (r: Value)
    ensures incoming == JNull || incoming == JFloat(NaN) ==> r == stored
    ensures incoming != JNull && incoming != JFloat(NaN) ==> r == incoming
  {
    if Bound(incoming) == JNull then stored else Bound(incoming)
  }

  /** The five values `update_lead_signals` binds, in parameter order. */
  function SignalParams(signals: Dict): seq<Value>
  {
    [Get(signals, "grade"), Get(signals, "program_interest"), Get(signals, "urgency"),
     Get(signals, "budget_signal"), Get(signals, "intent")]
  }

  /** The row update of `update_lead_signals`: four signals merge into the
      column of the same name and `intent` merges into `extracted_intent`. */
  function MergeSignals(l: Lead, signals: Dict): (r: Lead)
    ensures r.grade == Coalesce(Get(signals, "grade"), l.grade)
    ensures r.programInterest == Coalesce(Get(signals, "program_interest"), l.programInterest)
    ensures r.urgency == Coalesce(Get(signals, "urgency"), l.urgency)
    ensures r.budgetSignal == Coalesce(Get(signals, "budget_signal"), l.budgetSignal)
    ensures r.extractedIntent == Coalesce(Get(signals, "intent"), l.extractedIntent)
    ensures r.(grade := l.grade, programInterest := l.programInterest, urgency := l.urgency,
               budgetSignal := l.budgetSignal, extractedIntent := l.extractedIntent) == l
  {
    l.(grade := Coalesce(Get(signals, "grade"), l.grade),
       programInterest := Coalesce(Get(signals, "program_interest"), l.programInterest),
       urgency := Coalesce(Get(signals, "urgency"), l.urgency),
       budgetSignal := Coalesce(Get(signals, "budget_signal"), l.budgetSignal),
       extractedIntent := Coalesce(Get(signals, "intent"), l.extractedIntent))
  }

  /** Merging the same signals twice is merging them once. */
  lemma MergeSignalsIdempotent(l: Lead, signals: Dict)
    ensures MergeSignals(MergeSignals(l, signals), signals) == MergeSignals(l, signals)
  {
  }

  /** `update_lead_signals`: binding a list or dict raises before the UPDATE
      runs; otherwise the lead's signal columns are merged. */
  function UpdateLeadSignals(st: Store, id: nat, signals: Dict): (r: Completion<Store>)
    ensures r.Raised? <==> exists k | 0 <= k < 5 :: !Bindable(SignalParams(signals)[k])
    ensures r.Returned? ==> r.value.leads.Keys == st.leads.Keys
    ensures r.Returned? && id in st.leads ==> r.value.leads[id] == MergeSignals(st.leads[id], signals)
    ensures r.Returned? ==> forall other | other in st.leads && other != id :: r.value.leads[other] == st.leads[other]
    ensures r.Returned? ==> r.value.bookings == st.bookings && r.value.nextId == st.nextId
  {
    if exists k | 0 <= k < 5 :: !Bindable(SignalParams(signals)[k]) then Raised
    else if id in st.leads then Returned(st.(leads := st.leads[id := MergeSignals(st.leads[id], signals)]))
    else Returned(st)
  }

  /** Running the same `update_lead_signals` twice is running it once. */
  lemma UpdateLeadSignalsIdempotent(st: Store, id: nat, signals: Dict)
    requires UpdateLeadSignals(st, id, signals).Returned?
    ensures UpdateLeadSignals(UpdateLeadSignals(st, id, signals).value, id, signals)
            == UpdateLeadSignals(st, id, signals)
  {
    var st1 := UpdateLeadSignals(st, id, signals).value;
    if id in st.leads {
      MergeSignalsIdempotent(st.leads[id], signals);
      assert st1.leads[id] == MergeSignals(st1.leads[id], signals);
      assert st1.leads[id := MergeSignals(st1.leads[id], signals)] == st1.leads;
    }
  }

  /** A JSON integer too wide for SQLite makes the update raise, while a
      NaN binds as NULL and so leaves the stored column alone. */
  lemma WideIntRaisesNaNKeeps(st: Store, id: nat)
    ensures UpdateLeadSignals(st, id, map["grade" := JInt(100_000_000_000_000_000_000)]).Raised?
    ensures var r := UpdateLeadSignals(st, id, map["grade" := JFloat(NaN)]);
            r.Returned? && (id in st.leads ==> r.value.leads[id] == st.leads[id])
  {
    assert !Bindable(SignalParams(map["grade" := JInt(100_000_000_000_000_000_000)])[0]);
  }

  // ----------------------------------------------------------------------
  // Bookings
  // ----------------------------------------------------------------------

  predicate HoldsSlot(b: Booking, date: string, time: string) {
    b.date == date && b.time == time
  }

  /** `SELECT COUNT(*) FROM bookings WHERE booking_date = ? AND booking_time = ?` */
  function CountSlot(bookings: seq<Booking>, date: string, time: string): (n: nat)
    ensures n == 0 <==> forall i | 0 <= i < |bookings| :: !HoldsSlot(bookings[i], date, time)
    ensures n <= |bookings|
  {
    if |bookings| == 0 then 0
    else CountSlot(bookings[..|bookings| - 1], date, time)
         + (if HoldsSlot(bookings[|bookings| - 1], date, time) then 1 else 0)
  }

  /** `is_slot_available`: no booking of ANY lead holds the slot. */
  function IsSlotAvailable(st: Store, date: string, time: string): (r: bool)
    ensures r <==> forall i | 0 <= i < |st.bookings| :: !HoldsSlot(st.bookings[i], date, time)
  {
    CountSlot(st.bookings, date, time) == 0
  }

  /** `save_booking`: append a "Scheduled" booking. It checks neither the
      slot nor that the lead exists (foreign keys are not enforced). */
  function SaveBooking(st: Store, leadId: nat, date: string, time: string, mode: string): (r: Store)
    ensures |r.bookings| == |st.bookings| + 1
    ensures r.bookings[..|st.bookings|] == st.bookings
    ensures r.bookings[|st.bookings|] == Booking(leadId, date, time, mode, "Scheduled")
    ensures r.leads == st.leads && r.nextId == st.nextId
  {
    st.(bookings := st.bookings + [Booking(leadId, date, time, mode, "Scheduled")])
  }

  function View(b: Booking): BookingView {
    BookingView(b.date, b.time, b.mode, b.status)
  }

  /** `get_bookings_by_lead`: the lead's bookings, in table order. */
  function GetBookingsByLead(st: Store, leadId: nat): (r: seq<BookingView>)
    ensures |r| <= |st.bookings|
    ensures forall v | v in r :: exists i | 0 <= i < |st.bookings| :: st.bookings[i].leadId == leadId && View(st.bookings[i]) == v
    ensures (forall i | 0 <= i < |st.bookings| :: st.bookings[i].leadId != leadId) ==> r == []
    decreases |st.bookings|
  {
    if |st.bookings| == 0 then []
    else
      var last := st.bookings[|st.bookings| - 1];
      var prefix := GetBookingsByLead(st.(bookings := st.bookings[..|st.bookings| - 1]), leadId);
      if last.leadId == leadId then prefix + [View(last)] else prefix
  }

  // ----------------------------------------------------------------------
  // Properties of the store operations
  // ----------------------------------------------------------------------

  /** Score increments compose additively. */
  lemma IncreaseLeadScoreAdditive(st: Store, id: nat, a: int, b: int)
    ensures IncreaseLeadScore(IncreaseLeadScore(st, id, a), id, b) == IncreaseLeadScore(st, id, a + b)
  {
  }

  /** The last stage written wins. */
  lemma UpdatePipelineStageLastWins(st: Store, id: nat, s1: string, s2: string)
    ensures UpdatePipelineStage(UpdatePipelineStage(st, id, s1), id, s2) == UpdatePipelineStage(st, id, s2)
  {
  }

  /** After inserting an unused email, looking it up finds the new row. */
  lemma SaveLeadThenFind(st: Store, name: string, email: string, phone: string, userType: string,
                         leadScore: int)
    requires st.Valid()
    requires !EmailTaken(st, email)
    ensures GetLeadByEmail(SaveLead(st, name, email, phone, userType, None, None, None, None, None, None, leadScore), email)
            == Some(Row(st.nextId, NewLead(name, email, phone, userType, None, None, None, None, None, None, leadScore)))
  {
  }

  /** Saving a booking shows up in that lead's booking list and no other. */
  lemma SaveBookingThenList(st: Store, leadId: nat, date: string, time: string, mode: string, other: nat)
    ensures GetBookingsByLead(SaveBooking(st, leadId, date, time, mode), leadId)
            == GetBookingsByLead(st, leadId) + [BookingView(date, time, mode, "Scheduled")]
    ensures other != leadId ==>
            GetBookingsByLead(SaveBooking(st, leadId, date, time, mode), other) == GetBookingsByLead(st, other)
  {
    var st' := SaveBooking(st, leadId, date, time, mode);
    assert st'.bookings[..|st'.bookings| - 1] == st.bookings;
    assert st'.(bookings := st.bookings) == st;
  }

  /** `save_booking` alone does not keep slots exclusive: a second booking of
      a held slot is written all the same. */
  lemma SaveBookingCanDoubleBook()
    ensures var st := SaveBooking(EmptyStore, 1, "2025-01-10", "10:00 AM", "Online");
            var st' := SaveBooking(st, 2, "2025-01-10", "10:00 AM", "Offline");
            !IsSlotAvailable(st, "2025-01-10", "10:00 AM") && !SlotExclusive(st'.bookings)
  {
    var st := SaveBooking(EmptyStore, 1, "2025-01-10", "10:00 AM", "Online");
    var st' := SaveBooking(st, 2, "2025-01-10", "10:00 AM", "Offline");
    assert HoldsSlot(st.bookings[0], "2025-01-10", "10:00 AM");
    assert st'.bookings[0].date == st'.bookings[1].date && st'.bookings[0].time == st'.bookings[1].time;
  }
}

=== FILE: followup_engine.dfy ===
/** `recommend_action` of `app/followup_engine.py`. */
module FollowupEngine {

  import opened LeadManager

  const EncourageDemo := "Encourage demo booking."
  const PushScheduling := "Push toward demo scheduling."
  const SendReminder := "Send reminder and preparation info."
  const HighPriority := "High priority lead — immediate counselor follow-up."
  const MaintainEngagement := "Maintain engagement."

  /** `recommend_action`: the stage tests come first; only a stage other
      than New, Qualified and Booked looks at the score. */
  function RecommendAction(leadScore: int, stage: string): (r: string)
    ensures r in {EncourageDemo, PushScheduling, SendReminder, HighPriority, MaintainEngagement}
    ensures stage == "New" ==> r == EncourageDemo
    ensures stage == "Qualified" ==> r == PushScheduling
    ensures stage == "Booked" ==> r == SendReminder
    ensures stage !in {"New", "Qualified", "Booked"} ==> (r == HighPriority <==> leadScore >= 80)
    ensures stage !in {"New", "Qualified", "Booked"} ==> (r == MaintainEngagement <==> leadScore < 80)
  {
    if stage == "New" then EncourageDemo
    else if stage == "Qualified" then PushScheduling
    else if stage == "Booked" then SendReminder
    else if leadScore >= 80 then HighPriority
    else MaintainEngagement
  }

  /** For New, Qualified and Booked the score is never consulted. */
  lemma StageTakesPrecedence(a: int, b: int, stage: string)
    requires stage in {"New", "Qualified", "Booked"}
    ensures RecommendAction(a, stage) == RecommendAction(b, stage)
  {
  }

  /** For a lead whose stage matches its score, the advice follows the
      score bands: below 30 encourage a demo, a Warm lead (30-59) is only
      kept engaged, 60-89 pushes scheduling, 90 and above is high priority. */
  lemma AdviceForScoreStage(score: int)
    ensures score < 30 ==> RecommendAction(score, PipelineStage(score)) == EncourageDemo
    ensures 30 <= score < 60 ==> RecommendAction(score, PipelineStage(score)) == MaintainEngagement
    ensures 60 <= score < 90 ==> RecommendAction(score, PipelineStage(score)) == PushScheduling
    ensures score >= 90 ==> RecommendAction(score, PipelineStage(score)) == HighPriority
  {
    PipelineStageBands(score);
  }
}

=== FILE: lead_manager.dfy ===
/** Scoring, pipeline stages and the two lead-manager operations of
    `app/lead_manager.py`, over the store of `Database`. */
module LeadManager {

  import opened Wrappers
  import opened PyValues
  import opened Database

  // ----------------------------------------------------------------------
  // Base score
  // ----------------------------------------------------------------------

  /** `calculate_base_score`: School 40, Parent 20, anything else 10. */
  function BaseScore(userType: Option<string>): (r: int)
    ensures userType == Some("School") ==> r == 40
    ensures userType == Some("Parent") ==> r == 20
    ensures userType != Some("School") && userType != Some("Parent") ==> r == 10
  {
    if userType == Some("School") then 40
    else if userType == Some("Parent") then 20
    else 10
  }

  // ----------------------------------------------------------------------
  // Signal score
  // ----------------------------------------------------------------------

  /** A signal dict is falsy when absent or empty. */
  predicate NoSignals(signals: Option<Dict>) {
    signals.None? || |signals.value| == 0
  }

  /** `calculate_signal_score`, step by step as the source accumulates it. */
  function SignalScore(signals: Option<Dict>): (r: int)
    ensures NoSignals(signals) ==> r == 0
    ensures -5 <= r <= 85
  {
    if NoSignals(signals) then 0
    else
      var d := signals.value;
      var s0 := 0;
      var s1 := if Truthy(Get(d, "grade")) then s0 + 10 else s0;
      var s2 := if Truthy(Get(d, "program_interest")) then s1 + 15 else s1;
      var s3 := if Get(d, "urgency") == JStr("High") then s2 + 20
                else if Get(d, "urgency") == JStr("Medium") then s2 + 10
                else s2;
      var s4 := if Get(d, "intent") == JStr("Demo") then s3 + 25
                else if Get(d, "intent") == JStr("Partnership") then s3 + 30
                else if Get(d, "intent") == JStr("Enrollment") then s3 + 20
                else s3;
      var s5 := if Get(d, "budget_signal") == JStr("Premium") then s4 + 10
                else if Get(d, "budget_signal") == JStr("Sensitive") then s4 - 5
                else s4;
      s5
  }

  /** The per-field delta table, each field judged on its own. */
  function GradeDelta(v: Value): int { if Truthy(v) then 10 else 0 }

  function ProgramInterestDelta(v: Value): int { if Truthy(v) then 15 else 0 }

  function UrgencyDelta(v: Value): int {
    if v == JStr("High") then 20 else if v == JStr("Medium") then 10 else 0
  }

  function IntentDelta(v: Value): int {
    if v == JStr("Demo") then 25
    else if v == JStr("Partnership") then 30
    else if v == JStr("Enrollment") then 20
    else 0
  }

  function BudgetDelta(v: Value): int {
    if v == JStr("Premium") then 10 else if v == JStr("Sensitive") then -5 else 0
  }

  function FieldDeltaSum(d: Dict): int {
    GradeDelta(Get(d, "grade")) + ProgramInterestDelta(Get(d, "program_interest"))
    + UrgencyDelta(Get(d, "urgency")) + IntentDelta(Get(d, "intent"))
    + BudgetDelta(Get(d, "budget_signal"))
  }

  /** A non-empty signal dict scores the sum of its independent field deltas. */
  lemma SignalScoreIsFieldSum(d: Dict)
    requires |d| > 0
    ensures SignalScore(Some(d)) == FieldDeltaSum(d)
  {
  }

  /** The minimum -5 is reached exactly by a Sensitive budget with nothing
      else earning points. */
  lemma SignalScoreMinimum(d: Dict)
    requires |d| > 0
    ensures SignalScore(Some(d)) == -5 <==>
      && Get(d, "budget_signal") == JStr("Sensitive")
      && !Truthy(Get(d, "grade")) && !Truthy(Get(d, "program_interest"))
      && UrgencyDelta(Get(d, "urgency")) == 0 && IntentDelta(Get(d, "intent")) == 0
  {
    SignalScoreIsFieldSum(d);
  }

  /** The maximum 85 is reached exactly when every field takes its best branch. */
  lemma SignalScoreMaximum(d: Dict)
    requires |d| > 0
    ensures SignalScore(Some(d)) == 85 <==>
      && Truthy(Get(d, "grade")) && Truthy(Get(d, "program_interest"))
      && Get(d, "urgency") == JStr("High") && Get(d, "intent") == JStr("Partnership")
      && Get(d, "budget_signal") == JStr("Premium")
  {
    SignalScoreIsFieldSum(d);
  }

  /** Comparisons are exact and case-sensitive: "high" earns nothing. */
  lemma SignalScoreCaseSensitive()
    ensures SignalScore(Some(map["urgency" := JStr("high")])) == 0
    ensures SignalScore(Some(map["urgency" := JStr("High")])) == 20
    ensures SignalScore(Some(map["grade" := JStr(""), "program_interest" := JNull])) == 0
  {
  }

  // ----------------------------------------------------------------------
  // Pipeline stage
  // ----------------------------------------------------------------------

  const ScoreStages: set<string> := {"New", "Warm", "Qualified", "Hot"}

  /** `determine_pipeline_stage`: total over all integers. */
  function PipelineStage(totalScore: int): (r: string)
    ensures r in ScoreStages
    ensures r != "Booked"
  {
    if totalScore >= 90 then "Hot"
    else if totalScore >= 60 then "Qualified"
    else if totalScore >= 30 then "Warm"
    else "New"
  }

  /** Position of a score stage in the funnel. */
  function StageRank(stage: string): nat {
    if stage == "Hot" then 3
    else if stage == "Qualified" then 2
    else if stage == "Warm" then 1
    else 0
  }

  /** Each stage is exactly one band of scores; negatives are New. */
  lemma PipelineStageBands(score: int)
    ensures PipelineStage(score) == "Hot" <==> score >= 90
    ensures PipelineStage(score) == "Qualified" <==> 60 <= score < 90
    ensures PipelineStage(score) == "Warm" <==> 30 <= score < 60
    ensures PipelineStage(score) == "New" <==> score < 30
  {
  }

  /** A higher score never yields a lower stage. */
  lemma PipelineStageMonotone(a: int, b: int)
    requires a <= b
    ensures StageRank(PipelineStage(a)) <= StageRank(PipelineStage(b))
  {
  }

  // ----------------------------------------------------------------------
  // save_lead
  // ----------------------------------------------------------------------

  /** `save_lead` of `app/lead_manager.py`. A known email gains the base
      score again and its stage is recomputed from the new total, whatever
      it was before ("Booked" included); an unknown email is inserted with
      the base score and the matching stage. `intent` is accepted but never
      stored. Returns the lead's new total. */
  function SaveLead(st: Store, name: string, email: string, phone: string, userType: string,
                    intent: Option<string>, grade: Option<string>, interest: Option<string>): (r: (Store, int))
    requires st.Valid()
    ensures r.0.Valid()
    ensures r.0.bookings == st.bookings
    ensures GetLeadByEmail(st, email).Some? ==>
      var prev := GetLeadByEmail(st, email).value;
      && r.1 == prev.lead.score + BaseScore(Some(userType))
      && r.0.leads == st.leads[prev.id := prev.lead.(score := r.1, stage := PipelineStage(r.1))]
      && r.0.nextId == st.nextId
    ensures GetLeadByEmail(st, email).None? ==>
      && r.1 == BaseScore(Some(userType))
      && r.0.leads == st.leads[st.nextId := NewLead(name, email, phone, userType, grade, interest,
                                                   None, None, None, None, r.1).(stage := PipelineStage(r.1))]
      && r.0.nextId == st.nextId + 1
  {
    var base := BaseScore(Some(userType));
    match GetLeadByEmail(st, email)
    case Some(existing) =>
      var st1 := IncreaseLeadScore(st, existing.id, base);
      var newTotal := existing.lead.score + base;
      (UpdatePipelineStage(st1, existing.id, PipelineStage(newTotal)), newTotal)
    case None =>
      var st1 := Database.SaveLead(st, name, email, phone, userType, grade, interest,
                                   None, None, None, None, base);
      var lead := GetLeadByEmail(st1, email);
      (UpdatePipelineStage(st1, lead.value.id, PipelineStage(base)), base)
  }

  /** The stored score of the lead with this email, 0 when there is none. */
  function ScoreOf(st: Store, email: string): int
    requires st.Valid()
  {
    match GetLeadByEmail(st, email)
    case None => 0
    case Some(row) => row.lead.score
  }

  /** Registration adds exactly the base score to the email's lead, leaves
      its stage in line with the new total, and returns that total. */
  lemma SaveLeadScoreAdditive(st: Store, name: string, email: string, phone: string, userType: string,
                              intent: Option<string>, grade: Option<string>, interest: Option<string>)
    requires st.Valid()
    ensures var r := SaveLead(st, name, email, phone, userType, intent, grade, interest);
            && ScoreOf(r.0, email) == ScoreOf(st, email) + BaseScore(Some(userType))
            && r.1 == ScoreOf(r.0, email)
            && GetLeadByEmail(r.0, email).Some?
            && GetLeadByEmail(r.0, email).value.lead.stage == PipelineStage(r.1)
  {
    var r := SaveLead(st, name, email, phone, userType, intent, grade, interest);
    match GetLeadByEmail(st, email)
    case Some(prev) =>
      assert r.0.leads[prev.id].email == email;
    case None =>
      assert r.0.leads[st.nextId].email == email;
  }

  /** After registration the email's row is the earlier row with the new
      total and its stage, or a fresh row at the next id; no lead with
      another email changes. */
  lemma SaveLeadRow(st: Store, name: string, email: string, phone: string, userType: string,
                    intent: Option<string>, grade: Option<string>, interest: Option<string>)
    requires st.Valid()
    ensures var r := SaveLead(st, name, email, phone, userType, intent, grade, interest);
            && r.0.leads.Keys <= st.leads.Keys + {st.nextId}
            && forall id | id in st.leads && st.leads[id].email != email :: id in r.0.leads && r.0.leads[id] == st.leads[id]
    ensures var r := SaveLead(st, name, email, phone, userType, intent, grade, interest);
            EmailTaken(st, email) ==>
              var prev := GetLeadByEmail(st, email).value;
              GetLeadByEmail(r.0, email) == Some(Row(prev.id, prev.lead.(score := r.1, stage := PipelineStage(r.1))))
    ensures var r := SaveLead(st, name, email, phone, userType, intent, grade, interest);
            !EmailTaken(st, email) ==>
              GetLeadByEmail(r.0, email)
                == Some(Row(st.nextId, NewLead(name, email, phone, userType, grade, interest, None, None, None, None, r.1)
                                         .(stage := PipelineStage(r.1))))
  {
    var r := SaveLead(st, name, email, phone, userType, intent, grade, interest);
    match GetLeadByEmail(st, email)
    case Some(prev) =>
      assert r.0.leads[prev.id].email == email;
    case None =>
      assert r.0.leads[st.nextId].email == email;
  }

  /** Re-registering a booked lead overwrites "Booked" with a score stage. */
  lemma ReRegistrationOverwritesBooked(st: Store, name: string, email: string, phone: string,
                                       userType: string, intent: Option<string>)
    requires st.Valid()
    requires GetLeadByEmail(st, email).Some? && GetLeadByEmail(st, email).value.lead.stage == "Booked"
    ensures var r := SaveLead(st, name, email, phone, userType, intent, None, None);
            var id := GetLeadByEmail(st, email).value.id;
            r.0.leads[id].stage != "Booked" && r.0.leads[id].stage in ScoreStages
  {
  }

  /** The `intent` argument has no effect at all. */
  lemma SaveLeadIgnoresIntent(st: Store, name: string, email: string, phone: string, userType: string,
                              i1: Option<string>, i2: Option<string>)
    requires st.Valid()
    ensures SaveLead(st, name, email, phone, userType, i1, None, None)
            == SaveLead(st, name, email, phone, userType, i2, None, None)
  {
  }

  // ----------------------------------------------------------------------
  // apply_ai_signals
  // ----------------------------------------------------------------------

  /** `apply_ai_signals`: for truthy signals, merge them into the lead and
      add their score; the stage is NOT recomputed. */
  function ApplyAiSignals(st: Store, leadId: nat, signals: Option<Dict>): (r: Completion<Store>)
    ensures NoSignals(signals) ==> r == Returned(st)
    ensures !NoSignals(signals) ==>
      (r.Raised? <==> exists k | 0 <= k < 5 :: !Bindable(SignalParams(signals.value)[k]))
    ensures r.Returned? ==> r.value.leads.Keys == st.leads.Keys
    ensures r.Returned? && !NoSignals(signals) && leadId in st.leads ==>
      && r.value.leads[leadId]
           == MergeSignals(st.leads[leadId], signals.value).(score := st.leads[leadId].score + SignalScore(signals))
      && r.value.leads[leadId].stage == st.leads[leadId].stage
    ensures r.Returned? ==> forall other | other in st.leads && other != leadId :: r.value.leads[other] == st.leads[other]
    ensures r.Returned? ==> r.value.bookings == st.bookings && r.value.nextId == st.nextId
  {
    if NoSignals(signals) then Returned(st)
    else
      match UpdateLeadSignals(st, leadId, signals.value)
      case Raised => Raised
      case Returned(st1) =>
        var signalScore := SignalScore(signals);
        if signalScore != 0 then Returned(IncreaseLeadScore(st1, leadId, signalScore))
        else Returned(st1)
  }

  /** Applying signals keeps the store well formed. */
  lemma ApplyAiSignalsValid(st: Store, leadId: nat, signals: Option<Dict>)
    requires st.Valid()
    requires ApplyAiSignals(st, leadId, signals).Returned?
    ensures ApplyAiSignals(st, leadId, signals).value.Valid()
  {
    var st' := ApplyAiSignals(st, leadId, signals).value;
    forall i, j | i in st'.leads && j in st'.leads && i != j
      ensures st'.leads[i].email != st'.leads[j].email
    {
      assert st'.leads[i].email == st.leads[i].email;
      assert st'.leads[j].email == st.leads[j].email;
    }
  }

  /** The stage can fall out of line with the score: a Warm lead of score 40
      that earns 55 from signals has 95 points and is still Warm. */
  lemma StageNotRecomputedAfterSignals()
    ensures var lead := Lead("A", "a@x.com", "1", "School", JNull, JNull, JNull, JNull, JNull, JNull, 40, "Warm");
            var st := Store(map[1 := lead], [], 2);
            var signals := map["grade" := JStr("Grade 8"), "intent" := JStr("Demo"), "urgency" := JStr("High")];
            var r := ApplyAiSignals(st, 1, Some(signals));
            && r.Returned?
            && r.value.leads[1].score == 95
            && r.value.leads[1].stage == "Warm"
            && PipelineStage(95) == "Hot"
  {
    var signals := map["grade" := JStr("Grade 8"), "intent" := JStr("Demo"), "urgency" := JStr("High")];
    SignalScoreIsFieldSum(signals);
    assert SignalParams(signals) == [JStr("Grade 8"), JNull, JStr("High"), JNull, JStr("Demo")];
  }
}

=== FILE: py_text.dfy ===
/** The Python string and slicing operations the modelled code relies on:
    `str.lower`, `str.capitalize`, `str.strip`, the `in` substring test and
    slicing with possibly negative bounds. Case mapping covers ASCII letters
    only; every other character is left as it is. */
module PyText {

  predicate IsUpperAscii(c: char) { 'A' <= c <= 'Z' }

  predicate IsLowerAscii(c: char) { 'a' <= c <= 'z' }

  function ToLowerChar(c: char): (r: char)
    ensures !IsUpperAscii(r)
    ensures !IsUpperAscii(c) ==> r == c
  {
    if IsUpperAscii(c) then (c as int + 32) as char else c
  }

  function ToUpperChar(c: char): (r: char)
    ensures !IsLowerAscii(r)
    ensures !IsLowerAscii(c) ==> r == c
  {
    if IsLowerAscii(c) then (c as int - 32) as char else c
  }

  /** `s.lower()` */
  function Lower(s: string): (r: string)
    ensures |r| == |s|
    ensures forall i :: 0 <= i < |s| ==> r[i] == ToLowerChar(s[i])
  {
    seq(|s|, i requires 0 <= i < |s| => ToLowerChar(s[i]))
  }

  /** `s.capitalize()`: the first character upper-cased and ALL the others
      lower-cased, so "HIGH" becomes "High" and "hIGH" becomes "High". */
  function Capitalize(s: string): (r: string)
    ensures |r| == |s|
    ensures |s| > 0 ==> r[0] == ToUpperChar(s[0])
    ensures forall i :: 1 <= i < |s| ==> r[i] == ToLowerChar(s[i])
  {
    if |s| == 0 then "" else [ToUpperChar(s[0])] + Lower(s[1..])
  }

  /** A string that `capitalize` leaves as it is. */
  predicate IsCapitalized(s: string) {
    (|s| > 0 ==> !IsLowerAscii(s[0]))
    && forall i :: 1 <= i < |s| ==> !IsUpperAscii(s[i])
  }

  lemma CapitalizeFixesCapitalized(s: string)
    ensures IsCapitalized(Capitalize(s))
    ensures IsCapitalized(s) <==> Capitalize(s) == s
  {
    if IsCapitalized(s) {
      assert forall i :: 0 <= i < |s| ==> Capitalize(s)[i] == s[i];
    }
  }

  /** Capitalizing twice is capitalizing once. */
  lemma CapitalizeIdempotent(s: string)
    ensures Capitalize(Capitalize(s)) == Capitalize(s)
  {
    CapitalizeFixesCapitalized(s);
    CapitalizeFixesCapitalized(Capitalize(s));
  }

  /** `c.isspace()` for a single character: the ASCII whitespace and
      separator controls, NEL, NBSP and the Unicode space separators. */
  predicate IsSpace(c: char) {
    || c == ' ' || c == '\t' || c == '\n' || c == '\r'
    || c == '\U{B}' || c == '\U{C}'
    || ('\U{1C}' <= c <= '\U{1F}')
    || c == '\U{85}' || c == '\U{A0}' || c == '\U{1680}'
    || ('\U{2000}' <= c <= '\U{200A}')
    || c == '\U{2028}' || c == '\U{2029}' || c == '\U{202F}'
    || c == '\U{205F}' || c == '\U{3000}'
  }

  predicate AllSpace(s: string) {
    forall i :: 0 <= i < |s| ==> IsSpace(s[i])
  }

  function LStrip(s: string): (r: string)
    ensures |r| <= |s| && r == s[|s| - |r|..]
    ensures AllSpace(s[..|s| - |r|])
    ensures |r| > 0 ==> !IsSpace(r[0])
  {
    if |s| > 0 && IsSpace(s[0]) then LStrip(s[1..]) else s
  }

  function RStrip(s: string): (r: string)
    ensures |r| <= |s| && r == s[..|r|]
    ensures AllSpace(s[|r|..])
    ensures |r| > 0 ==> !IsSpace(r[|r| - 1])
  {
    if |s| > 0 && IsSpace(s[|s| - 1]) then RStrip(s[..|s| - 1]) else s
  }

  /** `s.strip()` */
  function Strip(s: string): string
  {
    LStrip(RStrip(s))
  }

  /** Right-stripping an all-whitespace string leaves nothing. */
  lemma {:induction false} RStripAllSpace(s: string)
    requires AllSpace(s)
    ensures RStrip(s) == ""
    decreases |s|
  {
    if |s| > 0 {
      RStripAllSpace(s[..|s| - 1]);
    }
  }

  /** Whitespace on both sides of a split makes whitespace throughout. */
  lemma AllSpaceSplit(s: string, k: nat)
    requires k <= |s| && AllSpace(s[..k]) && AllSpace(s[k..])
    ensures AllSpace(s)
  {
    forall i | 0 <= i < |s| ensures IsSpace(s[i]) {
      if i < k {
        assert s[i] == s[..k][i];
      } else {
        assert s[i] == s[k..][i - k];
      }
    }
  }

  /** An empty strip leaves only whitespace behind. */
  lemma StripEmptyAllSpace(s: string)
    requires Strip(s) == ""
    ensures AllSpace(s)
  {
    var t := RStrip(s);
    assert t[..|t|] == t;
    assert t == s[..|t|];
    AllSpaceSplit(s, |t|);
  }

  /** `s.strip()` is falsy exactly when `s` consists of whitespace only. */
  lemma StripEmptyIffAllSpace(s: string)
    ensures Strip(s) == "" <==> AllSpace(s)
  {
    if Strip(s) == "" {
      StripEmptyAllSpace(s);
    }
    if AllSpace(s) {
      RStripAllSpace(s);
    }
  }

  /** `sub in s` */
  function Contains(s: string, sub: string): bool
    decreases |s|
  {
    if |s| < |sub| then false
    else s[..|sub|] == sub || Contains(s[1..], sub)
  }

  predicate OccursAt(s: string, sub: string, i: int) {
    0 <= i && i + |sub| <= |s| && s[i..i + |sub|] == sub
  }

  lemma {:induction false} ContainsHasOccurrence(s: string, sub: string) returns (i: nat)
    requires Contains(s, sub)
    ensures OccursAt(s, sub, i)
    decreases |s|
  {
    if s[..|sub|] == sub {
      i := 0;
    } else {
      var j := ContainsHasOccurrence(s[1..], sub);
      assert s[1..][j..j + |sub|] == s[j + 1..j + 1 + |sub|];
      i := j + 1;
    }
  }

  lemma {:induction false} OccurrenceGivesContains(s: string, sub: string, i: int)
    requires OccursAt(s, sub, i)
    ensures Contains(s, sub)
    decreases i
  {
    if i > 0 && s[..|sub|] != sub {
      assert s[1..][i - 1..i - 1 + |sub|] == s[i..i + |sub|];
      OccurrenceGivesContains(s[1..], sub, i - 1);
    }
  }

  /** The recursive substring test agrees with "some position starts a copy". */
  lemma ContainsIffOccurs(s: string, sub: string)
    ensures Contains(s, sub) <==> exists i :: OccursAt(s, sub, i)
  {
    if Contains(s, sub) {
      var i := ContainsHasOccurrence(s, sub);
    }
    if exists i :: OccursAt(s, sub, i) {
      var i :| OccursAt(s, sub, i);
      OccurrenceGivesContains(s, sub, i);
    }
  }

  /** A string holding a copy of `sub` holds each of its characters. */
  lemma ContainsHasChars(s: string, sub: string, c: char)
    requires c in sub
    ensures Contains(s, sub) ==> c in s
  {
    if Contains(s, sub) {
      var i := ContainsHasOccurrence(s, sub);
      var k :| 0 <= k < |sub| && sub[k] == c;
      assert s[i..i + |sub|][k] == c;
    }
  }

  /** A Python index into a sequence of length `n`, negative counting from the
      end, clamped into `[0, n]` as slicing does. */
  function ClampIndex(i: int, n: nat): (r: nat)
    ensures r <= n
    ensures 0 <= i <= n ==> r == i
    ensures i > n ==> r == n
    ensures i < 0 && i + n >= 0 ==> r == i + n
    ensures i + n < 0 ==> r == 0
  {
    if i < 0 then (if i + n < 0 then 0 else i + n)
    else if i > n then n
    else i
  }

  /** `s[i:j]` */
  function Slice<T>(s: seq<T>, i: int, j: int): (r: seq<T>)
    ensures |r| <= |s|
    ensures 0 <= i <= j <= |s| ==> r == s[i..j]
    ensures 0 <= i <= |s| <= j ==> r == s[i..]
    ensures 0 <= j <= i ==> r == []
  {
    var a := ClampIndex(i, |s|);
    var b := ClampIndex(j, |s|);
    if a < b then s[a..b] else []
  }

  /** `s[i:]` */
  function SliceFrom<T>(s: seq<T>, i: int): (r: seq<T>)
    ensures r == s[ClampIndex(i, |s|)..]
  {
    Slice(s, i, |s|)
  }
}

=== FILE: py_values.dfy ===
/** Dynamic Python values, as they arrive from `json.loads` and as they are
    handed to SQLite, together with Python's truthiness and `dict.get`. */
module PyValues {

  import opened Wrappers

  /** A Python float: a finite (exact, rational) value, or one of the
      non-finite values `json.loads` accepts as `NaN`, `Infinity` and
      `-Infinity`. */
  datatype Float = Finite(x: real) | Infinity(negative: bool) | NaN

  /** A JSON value after `json.loads`: integers are unbounded Python ints,
      numbers with a fraction or exponent are floats. */
  datatype Value =
    | JNull
    | JBool(b: bool)
    | JInt(i: int)
    | JFloat(f: Float)
    | JStr(s: string)
    | JArr(items: seq<Value>)
    | JObj(fields: map<string, Value>)

  /** A JSON object (a Python dict with string keys). */
  type Dict = map<string, Value>

  /** Python truthiness: `None`, `False`, zero and empty containers are falsy. */
  predicate Truthy(v: Value) {
    match v
    case JNull => false
    case JBool(b) => b
    case JInt(i) => i != 0
    case JFloat(f) => !(f.Finite? && f.x == 0.0)
    case JStr(s) => |s| > 0
    case JArr(items) => |items| > 0
    case JObj(fields) => |fields| > 0
  }

  /** `d.get(k)`: the stored value, or `None` for a missing key. */
  function Get(d: Dict, k: string): (v: Value)
    ensures k !in d ==> v == JNull
    ensures k in d ==> v == d[k]
  {
    if k in d then d[k] else JNull
  }

  /** Python's `None` when absent, the string otherwise. */
  function OptText(o: Option<string>): Value
  {
    match o
    case None => JNull
    case Some(s) => JStr(s)
  }

  /** SQLite's 64-bit INTEGER range. */
  const MinInt64: int := -0x8000_0000_0000_0000
  const MaxInt64: int := 0x7FFF_FFFF_FFFF_FFFF

  /** The values the `sqlite3` module can bind as query parameters: lists
      and dicts are refused (InterfaceError), and so is an int outside the
      64-bit range (OverflowError). */
  predicate Bindable(v: Value) {
    match v
    case JInt(i) => MinInt64 <= i <= MaxInt64
    case JArr(_) => false
    case JObj(_) => false
    case _ => true
  }

  /** The parameter value SQLite holds once `v` is bound: a NaN float is
      stored as NULL, every other bindable value as itself. */
  function Bound(v: Value): (r: Value)
    ensures v == JFloat(NaN) ==> r == JNull
    ensures v != JFloat(NaN) ==> r == v
  {
    if v == JFloat(NaN) then JNull else v
  }
}

=== FILE: wrappers.dfy ===
/** Failure-carrying result types shared by every module of the model. */
module Wrappers {

  /** Python's `None` or a present value. */
  datatype Option<+T> = None | Some(value: T)

  /** How a Python call ends: it returns a value, or an exception leaves it.
      The kind of exception never matters to the callers modelled here. */
  datatype Completion<+T> = Returned(value: T) | Raised
}
